=== FILE: README.md ===
# token-logos, modelled in Dafny

The service keeps a cache from (chain id, token contract address) to a token
logo URL. A scheduled refresh fills the cache from an upstream token-list
provider. An HTTP endpoint serves the image, with CORS headers and a
long-lived cache directive. When no cached entry exists it falls back to the
chain's native-token logo or to an identicon.

This project models the decision logic inside that I/O. The network, the
key-value store, the clock and the random source are explicit inputs:

- `Fetch`: the retry client (`fetchWithRetry`, `parseRetryAfter`,
  `fetchJSON`). It is a function over a finite sequence of `Step`s. Each step
  holds what one `fetch` call produced, the jitter draw and the clock reading.
  The function returns the settled result, the delays slept and the number of
  calls made.
- `Indexer`: `indexPlatform` and `updateIndex`. Each returns the ordered list of
  store writes it issues; the store afterwards is `Kv.Apply(store, writes)`.
- `Bulk`: `setMany`, modelled as a sequential drain of a private copy of the queue.
- `Proxy` and `Server`: `IDENTICON`, `ipfsToHttp`, the status and header logic
  of `streamThrough`, and the `server` handler (routing, validation, fallback
  order). Image fetching is an input function.
- `Constants` and `Kv`: `HEADERS_CORS`, `nativeTokenLogo` and the key builders.
- `Text`, `Numbers`, `Http`, `Outcomes`: the JavaScript string and number
  operations the code relies on, and the Fetch API types.
- `Pipeline`: end-to-end properties, from indexing a token to serving it.

Header names are held lower-case, as a Fetch `Headers` object exposes them.
The headers of a received response have a type that admits only names with no
upper-case letter, so an upstream header cannot slip past the CORS overwrite
under another spelling. `HEADERS_CORS` is written with lower-case names.

The model follows the code's truthiness tests and error paths:

- An empty stored ETag sends no `If-None-Match`, and an empty `etag` response
  header writes no ETag. The code tests truthiness, not presence.
- An empty cached logo string is a cache miss. A platform id that is an empty
  string counts as missing.
- A token-list body that is not JSON makes `indexPlatform` reject (`Threw`),
  rather than skip softly.
- The 502 response keeps the upstream status only in its text body.
- The indexer files any token with a non-empty address. A token whose address
  is not `0x` followed by 40 hex digits is filed but never served, because the
  handler answers 400 before the lookup.

## Model

| member | source | states |
|---|---|---|
| `Constants.CorsHeadersShape` | src/constants.ts:6-10 | `HEADERS_CORS` has exactly three entries; `Access-Control-Allow-Origin` is `*` |
| `Constants.NativeTokenLogo` | src/constants.ts:12-19 | chain 137 gets the Polygon image and every other chain the Ethereum image (total); both are `https://assets.coingecko.com/` URLs |
| `Kv.LogoKeyCaseInsensitive` | src/kv.ts:4-5 | `LOGO_KEY(c, a) == LOGO_KEY(c, lower(a))`; its address part is `lower(a)` |
| `Kv.LogoKeyInjective` | src/kv.ts:4-5 | two logo keys are equal iff their chain ids are equal and their addresses are equal up to case |
| `Kv.KeyNamespacesDisjoint` | src/kv.ts:4-10 | logo, ETag and the two platform-map keys never collide; the two platform-map keys are distinct |
| `Kv.ApplyLastWrite` | src/kv.ts:2 | the store keeps the value of the last write to a key |
| `Kv.ApplyUnwritten` | src/kv.ts:2 | a key that no write mentions keeps its presence and value |
| `Kv.ApplyKeepsShape` | src/kv.ts:4-10 | writes whose values fit their key's namespace keep every slot holding the right shape of value |
| `Numbers.ParseIntToString` | src/indexer.ts:46 | `Number(String(n)) == n` for every integer chain id |
| `Numbers.IntToStringInjective` | src/kv.ts:5 | `String(a) == String(b)` iff `a == b`, so distinct chain ids give distinct keys |
| `Numbers.ParseNumber` | src/server.ts:21 | `""` reads as 0; an all-digit string reads as its base-ten value; `-digits` and `+digits` read as the signed value; every other string is not a finite number (both directions) |
| `Text.SplitJoin` | src/server.ts:13 | splitting the `/`-join of slash-free pieces gives the pieces back |
| `Text.JoinSplit` | src/server.ts:13 | joining the pieces of `split("/")` gives the path back |
| `Text.NonEmpty` | src/server.ts:13 | `filter(Boolean)` keeps only non-empty pieces, and a piece is kept iff it is non-empty |
| `Text.NonEmptyMultiset` | src/server.ts:13-14 | every non-empty piece is kept as often as it occurs and only the empty ones are dropped, so the filtered length (the `parts.length !== 3` test) counts the non-empty pieces |
| `Text.NonEmptyConcat` | src/server.ts:13 | filtering distributes over concatenation, so the kept pieces keep their original order |
| `Proxy.Identicon` | src/utils.ts:4-5 | the URL is the identicon base, then the chain id's decimal form, then `:`, then the lower-cased address |
| `Proxy.IdenticonCaseInsensitive` | src/utils.ts:4-5 | `IDENTICON(c, a) == IDENTICON(c, lower(a))`, under the identicon service's base URL |
| `Proxy.IdenticonInjective` | src/utils.ts:4-5 | different (chain id, lower-cased address) pairs get different identicon URLs |
| `Proxy.IpfsToHttp` | src/utils.ts:7-11 | non-`ipfs://` URLs are unchanged; `ipfs://X` becomes the gateway base + `X`; the result never starts with `ipfs://` |
| `Proxy.IpfsToHttpIdempotent` | src/utils.ts:7-11 | rewriting twice equals rewriting once |
| `Proxy.IpfsToHttpPreservesPath` | src/utils.ts:7-11 | the CID and path after `ipfs://` are kept exactly |
| `Proxy.StreamThrough` | src/utils.ts:13-25 | fetches the rewritten URL; a non-ok upstream gives 502 `Upstream <status>` with CORS and text/plain; success gives 200 with the body passed through, the immutable Cache-Control, every CORS header overwritten and all other upstream headers kept; a rejected fetch rejects |
| `Proxy.SetAll` | src/utils.ts:23 | `forEach(h.set)` overwrites the given names and leaves every other header as it was |
| `Bulk.SetMany` | src/utils.ts:27-40 | the drain issues every entry exactly once (as a multiset), pops from the end of a copy, and the store is the result of those writes |
| `Bulk.DrainWrites` | src/utils.ts:27-40 | after the drain, keys outside the entries are unchanged, every entry's key is present, and the first entry in the array that carries a key decides that key's value |
| `Bulk.DrainOrder` | src/utils.ts:34 | `pop` writes the entries in reverse array order |
| `Fetch.ParseRetryAfter` | src/utils.ts:46-53 | null or empty gives null; RFC 9110 delay-seconds `s` gives `s*1000`; a signed number gives `max(0, s*1000)`; an HTTP-date gives `max(0, when - now)`; any other value gives null; every result is >= 0 |
| `Fetch.Backoff` | src/utils.ts:72 | `floor(base*2^i + jitter)` lies in `[base*2^i, base*2^i + 250)` |
| `Fetch.RetryFrom` | src/utils.ts:63-80 | from iteration `i`: calls stay within `attempts`, one delay between consecutive calls, only retriable attempts are passed, and it settles with the last attempt |
| `Fetch.FetchWithRetry` | src/utils.ts:55-82 | zero attempts raise; otherwise the run meets `RetrySpec` (at most `attempts` calls, no sleep after the last, stop at the first 2xx/304/non-retriable status, each delay = `Retry-After` or backoff, return the last response or re-raise the last network error) |
| `Fetch.RetrySpecUnique` | src/utils.ts:63-81 | `RetrySpec` determines the run, so it is a complete reference definition of the loop |
| `Fetch.FirstTerminalWins` | src/utils.ts:66-69 | the first 2xx, 304 or non-retriable attempt `k` is returned after exactly `k+1` calls and `k` delays |
| `Fetch.ExhaustedRetries` | src/utils.ts:73-78 | when every attempt is retriable, all attempts are used; the last response is returned, or the last network error is raised |
| `Fetch.DelayBounds` | src/utils.ts:71-77 | every delay is >= 0; it equals the parsed `Retry-After` when present, else lies in the backoff window; network errors always back off |
| `Fetch.BackoffGrows` | src/utils.ts:72 | with a base delay of at least 250 ms, backoff strictly grows from one retry to the next |
| `Fetch.TwoServerErrorsThenOk` | src/utils.ts:63-78 | 500, 500, 200 returns the 200 after exactly two retries, and the second delay is at least the first |
| `Fetch.PersistentTooManyRequests` | src/utils.ts:68-74 | a persistent 429 with `Retry-After: 2` waits 2000 ms before each retry and returns the last 429 |
| `Fetch.FetchJson` | src/utils.ts:84-88 | succeeds iff the final response is 2xx with a JSON body; a non-ok final response (304 included) raises an HTTP error |
| `Fetch.FetchJsonRejectsNotModified` | src/utils.ts:84-87 | a 304 raises `HTTP 304` even though the retry client treats it as terminal |
| `Indexer.PlatformFor` | src/indexer.ts:6-11 | a platform id is found iff the stored chain map has a non-empty entry under `String(chainId)`, and the found id is that entry |
| `Indexer.PreviousEtag` | src/indexer.ts:13-17 | the conditional validator exists iff a non-empty ETag string is stored for the platform, and it is that string |
| `Indexer.EffectiveChainId` | src/indexer.ts:42-47 | a numeric `chainId` is used as-is; an all-digit string is read as a number; anything else falls back to the caller's chain |
| `Indexer.LogoEntry` | src/indexer.ts:37-49 | a token yields an entry iff it has a non-empty address and logo URI; the entry maps `LOGO_KEY(effective chain, address)` to the logo URI |
| `Indexer.LogoEntries` | src/indexer.ts:36-50 | no more entries than tokens; every key is a logo key with a non-empty lower-case address and every value a non-empty string; the entries are exactly the entries of the usable tokens |
| `Indexer.LogoEntriesSingle` | src/indexer.ts:37-49 | one token contributes its own entry if it has an address and a logo, and nothing otherwise |
| `Indexer.LogoEntriesConcat` | src/indexer.ts:36-50 | the entries of a concatenated list are the entries of its parts in order, so `sets` holds one entry per usable token, in token order |
| `Indexer.RepublishWrites` | src/indexer.ts:52-53 | every write before the last is a logo write, so the ETag is written last; every write fits its namespace |
| `Indexer.IndexPlatform` | src/indexer.ts:5-55 | no platform: no request and no writes; the request targets the platform's list and sends `If-None-Match` exactly when a non-empty ETag is stored; the outcome follows the final response: a network failure, a 304, another non-ok status and a 2xx body that is not JSON (a rejection, `Threw`) each write nothing, and only a parsed 2xx list is indexed |
| `Indexer.IndexedRunWrites` | src/indexer.ts:33-53 | a successful run writes the token list's entries in drain order, then the ETag, only when the response's `etag` is non-empty |
| `Indexer.FailedRunLeavesStore` | src/indexer.ts:19-34 | a 304, a non-ok status after retries, a network failure after retries, a 2xx body that is not JSON or a missing platform leaves the store unchanged, ETag included; the non-JSON body rejects with no writes |
| `Indexer.IndexKeepsShape` | src/indexer.ts:49-53 | indexing keeps every slot holding the right shape of value |
| `Indexer.StringChainIdWins` | src/indexer.ts:42-49 | a token with `chainId: "137"` is filed under chain 137, whatever chain is being indexed |
| `Indexer.BuildMaps` | src/indexer.ts:62-69 | the last platform of the listing, when it has a chain identifier, is filed in both maps: its chain id maps to its id and its id to its chain id |
| `Indexer.ChainMapDomain` | src/indexer.ts:64-66 | the chain map has a key exactly for each `String(chain_identifier)` of a platform whose identifier is not null |
| `Indexer.RevMapDomain` | src/indexer.ts:64-67 | the reverse map has a key exactly for each id of a platform whose identifier is not null |
| `Indexer.BuildMapsLatestWins` | src/indexer.ts:64-69 | the last listed platform for a chain id wins in the chain map; the last listed chain for a platform id wins in the reverse map |
| `Indexer.UpdateIndex` | src/indexer.ts:57-72 | a failing listing fetch raises and writes nothing; otherwise both maps are written, from the same pass, chain map first |
| `Indexer.RegistryFeedsIndexer` | src/indexer.ts:6-71 | after a successful refresh, the indexer's lookup for a chain finds the platform listed last for it |
| `Indexer.UpdateKeepsShape` | src/indexer.ts:70-71 | a registry refresh keeps every slot holding the right shape of value |
| `Server.CachedLogo` | src/server.ts:31-32 | a hit is a non-empty string stored under the token's logo key; an empty string is a miss |
| `Server.ResolveLogo` | src/server.ts:31-40 | the fallback order: the cached entry, else the native logo for the zero address, else the identicon |
| `Server.ServesResolvedLogo` | src/server.ts:21-40 | a request with `String(chainId)` as chain part and an address that lower-cases to a valid address streams whatever the lower-cased address resolves to |
| `Server.ServeToken` | src/server.ts:21-40 | a chain part that is not a finite number, or an address that does not lower-case to `0x` + 40 hex digits, gives 400 `Invalid chainId or address`; otherwise the lower-cased address's resolved logo is streamed through |
| `Server.Serve` | src/server.ts:5-55 | OPTIONS gives an empty body with exactly the CORS headers on any path; a `/token/` path without exactly 3 non-empty segments gives 400; `/` and `/health` give the JSON health body; any other path gives 404 with CORS headers |
| `Server.TokenPathSegments` | src/server.ts:12-14 | `/token/<c>/<a>` with non-empty slash-free parts splits into `["token", c, a]` |
| `Server.TokenRequestRouted` | src/server.ts:12-22 | such a request reaches the token branch with `c` and `a` |
| `Server.InvalidInputBeforeLookup` | src/server.ts:21-29 | a non-numeric chain id or a malformed address gives 400, the same for every store and every network |
| `Server.AddressCaseInsensitive` | src/server.ts:22-24 | the address is validated and looked up without regard to case |
| `Server.CacheServedFirst` | src/server.ts:31-37 | a cached logo is served even for the zero address; an empty cached string falls through to the native logo |
| `Pipeline.IndexedTokenIsServed` | src/server.ts:21-32 | after a successful indexing run, a token whose address passes the handler's check is served from the cache: `/token/<chain id>/<address>` streams its logo URI, and its address resolves to that URI. This holds provided every token of the list with the same key carries the same logo |

## Left out

- Startup and scheduling in main.ts (`Deno.serve`, `Deno.cron`) and the fire-and-forget `forEach(async …)` over chain ids: plumbing and concurrency. The KV lock mentioned in main.ts's header comment does not exist in the code, so it is not modelled.
- `Deno.openKv` and `supportedChainIds` (environment and store setup). The store is an abstract map.
- Real `fetch`, redirect following, body streaming and `res.json()` parsing. Responses and parsed bodies are datatype inputs. `new URL(req.url)` is not modelled: the handler receives the pathname.
- `Math.random`, `Date.now` and `Date.parse`. They are per-attempt inputs and a date-parser input.
- Logging with `console.warn` / `console.log`.
- Numbers.ParseNumber: JavaScript `Number()` is modelled only on `""` and on an optional sign followed by ASCII digits. Fractions, exponents, hex/octal/binary literals, surrounding whitespace and `Infinity` are treated as non-finite. Chain ids and delays are exact integers, with no 2^53 precision limit and no exponent form for `String(n)`.
- Fetch.ParseRetryAfter: a fractional `Retry-After` number (such as `1.5`) is read as non-numeric and passed to the date parser.
- Text.Lower: `toLowerCase` maps only ASCII letters. For address validation this is exact, because no other character lower-cases into `[0-9a-fx]`. For token-list addresses with non-ASCII letters it is weaker.
- Bulk.SetMany: the 25 concurrent workers are one sequential drain. When several entries share a key, the model's winner is the first entry in the array. In the source, scheduling decides. `setMany`'s rejection when a store write fails is not modelled, because store writes cannot fail here. The caller's array is never changed because Dafny sequences are values, so the copy the source makes is implicit.
- Reading a store slot that holds the wrong shape of value (say, a map under a logo key) is treated as absent. JavaScript would index into it or stringify it. `Kv.ApplyKeepsShape`, `Indexer.IndexKeepsShape` and `Indexer.UpdateKeepsShape` show that the service never writes such a value.
- Platform ids that are special JavaScript object keys (such as `__proto__`) behave as ordinary map keys here.
- The default `Content-Type: text/plain;charset=UTF-8` that the runtime adds to the 404 response is not modelled. The model's headers are the ones the code passes.
- Indexer.IndexPlatform: the fetch outcomes are a given sequence. The model does not make the server's answer depend on whether `If-None-Match` was sent; the request is recorded in the run instead.

=== FILE: bulk.dfy ===
/** The bulk writer `setMany`: workers pop entries off a private copy of the
    caller's list until it is empty, writing each one to the store.

    The workers are modelled as one sequential drain of the queue. Each pop
    and the following write happen between suspension points, so the set of
    writes is the same for any number of workers; only the order in which
    writes to the same key land depends on scheduling. The worker cap of
    25 therefore leaves no trace in the model. */
module Bulk {
  import opened Kv

  /** The order in which a sequential drain writes the entries: `pop` takes
      the last element first. */
  function DrainOrder(entries: seq<Write>): (order: seq<Write>)
    ensures |order| == |entries|
    ensures forall j :: 0 <= j < |entries| ==> order[j] == entries[|entries| - 1 - j]
  {
    if |entries| == 0 then []
    else [entries[|entries| - 1]] + DrainOrder(entries[..|entries| - 1])
  }

  /** No earlier entry carries the key of entry `i`. */
  predicate FirstWithKey(entries: seq<Write>, i: nat)
    requires i < |entries|
  {
    forall j :: 0 <= j < i ==> entries[j].key != entries[i].key
  }

  /** `setMany(entries)`: `written` is the sequence of `kv.set` calls. */
  method SetMany(store: Store, entries: seq<Write>) returns (store': Store, written: seq<Write>)
    ensures written == DrainOrder(entries)
    ensures multiset(written) == multiset(entries)
    ensures store' == Apply(store, written)
  {
    var queue := entries;
    written := [];
    store' := store;
    while |queue| > 0
      invariant queue == entries[..|queue|]
      invariant written + DrainOrder(queue) == DrainOrder(entries)
      invariant store' == Apply(store, written)
      decreases |queue|
    {
      var item := queue[|queue| - 1];
      PopStep(written, queue);
      queue := queue[..|queue| - 1];
      ApplyConcat(store, written, [item]);
      written := written + [item];
      store' := store'[item.key := item.value];
    }
    DrainOrderPermutes(entries);
  }

  /** One pop moves the last queued entry to the end of the write log. */
  lemma PopStep(written: seq<Write>, queue: seq<Write>)
    requires |queue| > 0
    ensures (written + [queue[|queue| - 1]]) + DrainOrder(queue[..|queue| - 1]) == written + DrainOrder(queue)
  {
    var item, rest := [queue[|queue| - 1]], DrainOrder(queue[..|queue| - 1]);
    assert DrainOrder(queue) == item + rest;
    assert (written + item) + rest == written + (item + rest);
  }

  /** The drain writes every entry exactly once. */
  lemma {:induction false} DrainOrderPermutes(entries: seq<Write>)
    ensures multiset(DrainOrder(entries)) == multiset(entries)
    decreases |entries|
  {
    if |entries| > 0 {
      var n := |entries|;
      DrainOrderPermutes(entries[..n - 1]);
      assert entries == entries[..n - 1] + [entries[n - 1]];
    }
  }

  /** What a drain leaves in the store: keys outside the entries are
      untouched, and for each key the first entry carrying it is written last. */
  lemma DrainWrites(store: Store, entries: seq<Write>)
    ensures var s := Apply(store, DrainOrder(entries));
            && (forall k :: !Writes(entries, k) ==> (k in s <==> k in store) && (k in store ==> s[k] == store[k]))
            && (forall i :: 0 <= i < |entries| ==> entries[i].key in s)
            && (forall i :: 0 <= i < |entries| && FirstWithKey(entries, i) ==> s[entries[i].key] == entries[i].value)
  {
    var order := DrainOrder(entries);
    var n := |entries|;
    forall k | !Writes(entries, k)
      ensures var s := Apply(store, order); (k in s <==> k in store) && (k in store ==> s[k] == store[k])
    {
      forall j | 0 <= j < n
        ensures order[j].key != k
      {
        assert order[j] == entries[n - 1 - j];
      }
      ApplyUnwritten(store, order, k);
    }
    forall i | 0 <= i < n && FirstWithKey(entries, i)
      ensures entries[i].key in Apply(store, order)
      ensures Apply(store, order)[entries[i].key] == entries[i].value
    {
      assert order[n - 1 - i] == entries[i];
      forall j | n - 1 - i < j < n
        ensures order[j].key != order[n - 1 - i].key
      {
        assert order[j] == entries[n - 1 - j];
      }
      ApplyLastWrite(store, order, n - 1 - i);
    }
    forall i | 0 <= i < n
      ensures entries[i].key in Apply(store, order)
    {
      var f := FirstIndex(entries, i);
      assert entries[f].key == entries[i].key;
    }
  }

  /** The first entry carrying the key of entry `i`. */
  ghost function FirstIndex(entries: seq<Write>, i: nat): (f: nat)
    requires i < |entries|
    ensures f <= i && entries[f].key == entries[i].key && FirstWithKey(entries, f)
    decreases i
  {
    if FirstWithKey(entries, i) then i
    else
      var j :| 0 <= j < i && entries[j].key == entries[i].key;
      FirstIndex(entries, j)
  }
}

=== FILE: constants.dfy ===
/** Fixed values of the service: the CORS header set and the native-token logos. */
module Constants {
  import opened Text

  /** Header names are held lower-case, as a `Headers` object exposes them. */
  const ALLOW_ORIGIN := "access-control-allow-origin"
  const ALLOW_METHODS := "access-control-allow-methods"
  const ALLOW_HEADERS := "access-control-allow-headers"

  /** `HEADERS_CORS`: any origin may read; GET, HEAD and OPTIONS are allowed. */
  const HEADERS_CORS: map<string, string> := map[
    ALLOW_ORIGIN := "*",
    ALLOW_METHODS := "GET, HEAD, OPTIONS",
    ALLOW_HEADERS := "Content-Type"
  ]

  /** `HEADERS_CORS` has exactly three entries and lets every origin read. */
  lemma CorsHeadersShape()
    ensures HEADERS_CORS.Keys == {ALLOW_ORIGIN, ALLOW_METHODS, ALLOW_HEADERS}
    ensures |HEADERS_CORS| == 3
    ensures HEADERS_CORS[ALLOW_ORIGIN] == "*"
  {
  }

  const ASSETS_BASE := "https://assets.coingecko.com/"
  const POLYGON_LOGO := ASSETS_BASE + "coins/images/32440/standard/polygon.png"
  const ETHEREUM_LOGO := ASSETS_BASE + "coins/images/279/standard/ethereum.png"

  /** `nativeTokenLogo`: Polygon's image for chain 137, Ethereum's for every
      other chain id, so the function is total. */
  function NativeTokenLogo(chainId: int): (url: string)
    ensures StartsWith(url, ASSETS_BASE)
    ensures url == POLYGON_LOGO <==> chainId == 137
    ensures url == ETHEREUM_LOGO <==> chainId != 137
  {
    assert POLYGON_LOGO[42] != ETHEREUM_LOGO[42];
    StartsWithConcat(ASSETS_BASE, "coins/images/32440/standard/polygon.png");
    StartsWithConcat(ASSETS_BASE, "coins/images/279/standard/ethereum.png");
    if chainId == 137 then POLYGON_LOGO else ETHEREUM_LOGO
  }
}

=== FILE: fetch.dfy ===
/** The resilient fetch client: `fetchWithRetry`, `parseRetryAfter` and `fetchJSON`.

    The network, the clock and the random source are inputs. A `Step` is what
    the world supplies to one attempt: the outcome of the `fetch` call, the
    value `Math.random() * 250` would have drawn, and the clock reading
    `Date.now()` would have given. `Date.parse` is the `DateParser` input. */
module Fetch {
  import opened Outcomes
  import opened Numbers
  import opened Http

  /** `Math.random() * 250`. */
  type Jitter = r: real | 0.0 <= r < 250.0

  /** What one `fetch` call produced: a response or a rejected promise. */
  datatype Attempt<B> = Got(res: FetchResponse<B>) | NetErr(cause: string)

  datatype Step<B> = Step(attempt: Attempt<B>, jitter: Jitter, now: int)

  /** The errors the client raises. */
  datatype Error =
    | NetworkFailure(cause: string)       // the last attempt's fetch rejected
    | AttemptsExhausted                   // the loop ran zero times
    | HttpFailure(status: int, url: string)
    | MalformedJson                       // `res.json()` rejected

  /** A response body read with `res.json()`. */
  datatype JsonBody<T> = Parsed(value: T) | Malformed

  /** What `fetchWithRetry` did: its result, the delays it slept and how many
      times it called `fetch`. */
  datatype RetryRun<B> = RetryRun(result: Result<FetchResponse<B>, Error>, delays: seq<int>, calls: nat)

  /** `Date.parse`: milliseconds since the epoch, or `None` for `NaN`. */
  type DateParser = string -> Option<int>

  /** The `opts` argument; absent fields take the defaults 4 and 500. */
  datatype RetryOptions = RetryOptions(attempts: Option<int>, baseDelayMs: Option<nat>)

  const DEFAULT_ATTEMPTS := 4
  const DEFAULT_BASE_DELAY_MS: nat := 500
  const RETRY_AFTER := "retry-after"

  function Max0(x: int): int {
    if x < 0 then 0 else x
  }

  function Pow2(i: nat): (p: nat)
    ensures p >= 1
  {
    if i == 0 then 1 else 2 * Pow2(i - 1)
  }

  /** `parseRetryAfter`: a `Retry-After` header value as a non-negative delay in
      milliseconds. Both forms of section 10.2.3 of RFC 9110 are accepted:
      delay-seconds, and an HTTP-date measured against the clock `now`. */
  function ParseRetryAfter(h: Option<string>, parseDate: DateParser, now: int): (ms: Option<int>)
    ensures h.None? || h == Some("") ==> ms.None?
    ensures h.Some? && AllDigits(h.value) ==> ms == Some(DigitsValue(h.value) * 1000)
    ensures h.Some? && h.value != "" && ParseNumber(h.value).Some? ==>
              ms == Some(Max0(ParseNumber(h.value).value * 1000))
    ensures h.Some? && ParseNumber(h.value).None? && parseDate(h.value).Some? ==>
              ms == Some(Max0(parseDate(h.value).value - now))
    ensures h.Some? && ParseNumber(h.value).None? && parseDate(h.value).None? ==> ms.None?
    ensures ms.Some? ==> ms.value >= 0
  {
    if h.None? || h.value == "" then None
    else match ParseNumber(h.value)
      case Some(s) => Some(Max0(s * 1000))
      case None =>
        match parseDate(h.value)
        case Some(when) => Some(Max0(when - now))
        case None => None
  }

  /** `Math.floor(base * 2 ** i + Math.random() * 250)`. */
  function Backoff(base: nat, i: nat, jitter: Jitter): (d: int)
    ensures base * Pow2(i) <= d < base * Pow2(i) + 250
  {
    ((base * Pow2(i)) as real + jitter).Floor
  }

  /** 429 Too Many Requests and every 5xx are worth retrying. */
  predicate Retriable(status: int) {
    status == 429 || 500 <= status < 600
  }

  /** An attempt after which the client stops: a 2xx, a 304 Not Modified
      (section 15.4.5 of RFC 9110) or a status that is not retriable. */
  predicate Terminal<B>(a: Attempt<B>) {
    a.Got? && (a.res.Ok() || a.res.status == 304 || !Retriable(a.res.status))
  }

  /** How the client's promise settles when an attempt is its last:
      a response is returned, a network failure is re-raised. */
  function Settle<B>(a: Attempt<B>): Result<FetchResponse<B>, Error> {
    match a
    case Got(res) => Ok(res)
    case NetErr(cause) => Err(NetworkFailure(cause))
  }

  /** The delay before retry `i`: the `Retry-After` value when the response
      carries one that parses, the jittered exponential backoff otherwise. */
  function Delay<B>(step: Step<B>, i: nat, base: nat, parseDate: DateParser): int {
    match step.attempt
    case Got(res) =>
      ParseRetryAfter(Header(res.headers, RETRY_AFTER), parseDate, step.now).GetOr(Backoff(base, i, step.jitter))
    case NetErr(_) => Backoff(base, i, step.jitter)
  }

  /** The declarative contract of the client for `attempts >= 1`: it calls
      `fetch` at most `attempts` times, sleeps once between consecutive calls
      and never after the last one, continues only past retriable attempts,
      stops early only on a terminal one, and settles with its last attempt. */
  ghost predicate RetrySpec<B>(w: seq<Step<B>>, attempts: int, base: nat, parseDate: DateParser, r: RetryRun<B>)
    requires 0 < attempts <= |w|
  {
    && 1 <= r.calls <= attempts
    && |r.delays| == r.calls - 1
    && (forall j :: 0 <= j < r.calls - 1 ==> !Terminal(w[j].attempt))
    && (forall j :: 0 <= j < r.calls - 1 ==> r.delays[j] == Delay(w[j], j, base, parseDate))
    && (r.calls < attempts ==> Terminal(w[r.calls - 1].attempt))
    && r.result == Settle(w[r.calls - 1].attempt)
  }

  /** Iteration `i` of the retry loop and everything after it. */
  function RetryFrom<B>(w: seq<Step<B>>, i: nat, attempts: int, base: nat, parseDate: DateParser): (r: RetryRun<B>)
    requires i < attempts <= |w|
    ensures i + 1 <= r.calls <= attempts
    ensures |r.delays| == r.calls - 1 - i
    ensures forall j :: i <= j < r.calls - 1 ==> !Terminal(w[j].attempt)
    ensures forall j :: i <= j < r.calls - 1 ==> r.delays[j - i] == Delay(w[j], j, base, parseDate)
    ensures r.calls < attempts ==> Terminal(w[r.calls - 1].attempt)
    ensures r.result == Settle(w[r.calls - 1].attempt)
    decreases attempts - i
  {
    var step := w[i];
    match step.attempt
    case Got(res) =>
      if res.Ok() || res.status == 304 then RetryRun(Ok(res), [], i + 1)
      else if !Retriable(res.status) then RetryRun(Ok(res), [], i + 1)
      else
        var ra := ParseRetryAfter(Header(res.headers, RETRY_AFTER), parseDate, step.now);
        var delay := if ra.Some? then ra.value else Backoff(base, i, step.jitter);
        if i < attempts - 1 then
          var rest := RetryFrom(w, i + 1, attempts, base, parseDate);
          RetryRun(rest.result, [delay] + rest.delays, rest.calls)
        else RetryRun(Ok(res), [], i + 1)
    case NetErr(cause) =>
      var delay := Backoff(base, i, step.jitter);
      if i < attempts - 1 then
        var rest := RetryFrom(w, i + 1, attempts, base, parseDate);
        RetryRun(rest.result, [delay] + rest.delays, rest.calls)
      else RetryRun(Err(NetworkFailure(cause)), [], i + 1)
  }

  /** `fetchWithRetry(url, init, opts)`, where `w[i]` is what the world supplies
      to the i-th call of `fetch(url, init)`. */
  function FetchWithRetry<B>(w: seq<Step<B>>, opts: RetryOptions, parseDate: DateParser): (r: RetryRun<B>)
    requires opts.attempts.GetOr(DEFAULT_ATTEMPTS) <= |w|
    ensures var attempts := opts.attempts.GetOr(DEFAULT_ATTEMPTS);
            attempts <= 0 ==> r == RetryRun(Err(AttemptsExhausted), [], 0)
    ensures var attempts := opts.attempts.GetOr(DEFAULT_ATTEMPTS);
            attempts > 0 ==> RetrySpec(w, attempts, opts.baseDelayMs.GetOr(DEFAULT_BASE_DELAY_MS), parseDate, r)
  {
    var attempts := opts.attempts.GetOr(DEFAULT_ATTEMPTS);
    var base := opts.baseDelayMs.GetOr(DEFAULT_BASE_DELAY_MS);
    if attempts <= 0 then RetryRun(Err(AttemptsExhausted), [], 0)
    else RetryFrom(w, 0, attempts, base, parseDate)
  }

  /** The specification determines the run completely: it is a reference
      definition of the client, independent of the loop. */
  lemma RetrySpecUnique<B>(w: seq<Step<B>>, attempts: int, base: nat, parseDate: DateParser, r1: RetryRun<B>, r2: RetryRun<B>)
    requires 0 < attempts <= |w|
    requires RetrySpec(w, attempts, base, parseDate, r1)
    requires RetrySpec(w, attempts, base, parseDate, r2)
    ensures r1 == r2
  {
  }

  /** The options both callers pass: 4 attempts, 800 ms base delay. */
  const CALLER_OPTIONS := RetryOptions(Some(4), Some(800))

  /** The first terminal attempt ends the run: nothing after it is fetched,
      and its response is returned as it is (a 2xx, a 304, or a non-retriable
      error status). */
  lemma FirstTerminalWins<B>(w: seq<Step<B>>, opts: RetryOptions, parseDate: DateParser, k: nat)
    requires opts.attempts.GetOr(DEFAULT_ATTEMPTS) <= |w|
    requires k < opts.attempts.GetOr(DEFAULT_ATTEMPTS)
    requires Terminal(w[k].attempt)
    requires forall j :: 0 <= j < k ==> !Terminal(w[j].attempt)
    ensures FetchWithRetry(w, opts, parseDate).calls == k + 1
    ensures FetchWithRetry(w, opts, parseDate).result == Ok(w[k].attempt.res)
    ensures |FetchWithRetry(w, opts, parseDate).delays| == k
  {
  }

  /** When every attempt is retriable the client uses all of them: it returns
      the last response if that attempt got one, and re-raises the network
      failure if it did not. */
  lemma ExhaustedRetries<B>(w: seq<Step<B>>, opts: RetryOptions, parseDate: DateParser)
    requires 0 < opts.attempts.GetOr(DEFAULT_ATTEMPTS) <= |w|
    requires forall j :: 0 <= j < opts.attempts.GetOr(DEFAULT_ATTEMPTS) ==> !Terminal(w[j].attempt)
    ensures var n := opts.attempts.GetOr(DEFAULT_ATTEMPTS);
            var r := FetchWithRetry(w, opts, parseDate);
            && r.calls == n
            && |r.delays| == n - 1
            && (w[n - 1].attempt.Got? ==> r.result == Ok(w[n - 1].attempt.res))
            && (w[n - 1].attempt.NetErr? ==> r.result == Err(NetworkFailure(w[n - 1].attempt.cause)))
  {
  }

  /** Every delay is non-negative; it is the `Retry-After` value when one is
      present and parses, and otherwise lies in [base * 2^j, base * 2^j + 250).
      Network failures always back off exponentially. */
  lemma DelayBounds<B>(w: seq<Step<B>>, opts: RetryOptions, parseDate: DateParser, j: nat)
    requires opts.attempts.GetOr(DEFAULT_ATTEMPTS) <= |w|
    requires j < |FetchWithRetry(w, opts, parseDate).delays|
    ensures var d := FetchWithRetry(w, opts, parseDate).delays[j];
            var base := opts.baseDelayMs.GetOr(DEFAULT_BASE_DELAY_MS);
            var ra := if w[j].attempt.Got?
                      then ParseRetryAfter(Header(w[j].attempt.res.headers, RETRY_AFTER), parseDate, w[j].now)
                      else None;
            && d >= 0
            && (ra.Some? ==> d == ra.value)
            && (ra.None? ==> base * Pow2(j) <= d < base * Pow2(j) + 250)
  {
  }

  /** Exponential backoff grows from one retry to the next once the base delay
      outweighs the jitter. */
  lemma BackoffGrows(base: nat, i: nat, j1: Jitter, j2: Jitter)
    requires base >= 250
    ensures Backoff(base, i, j1) < Backoff(base, i + 1, j2)
  {
    var m := base * Pow2(i);
    assert m >= base by {
      assert Pow2(i) >= 1;
    }
    assert base * Pow2(i + 1) == 2 * m;
  }

  function Respond<B>(status: int, body: B): Attempt<B> {
    Got(FetchResponse(status, map[], body))
  }

  /** Two 500s then a 200: the 200 is returned after exactly two retries, and
      the second delay is at least the first. */
  lemma TwoServerErrorsThenOk<B>(body: B, j0: Jitter, j1: Jitter, j2: Jitter, j3: Jitter, parseDate: DateParser, now: int)
    ensures var w := [Step(Respond(500, body), j0, now), Step(Respond(500, body), j1, now),
                      Step(Respond(200, body), j2, now), Step(Respond(200, body), j3, now)];
            var r := FetchWithRetry(w, CALLER_OPTIONS, parseDate);
            && r.calls == 3
            && r.result == Ok(FetchResponse(200, map[], body))
            && |r.delays| == 2
            && r.delays[0] <= r.delays[1]
  {
  }

  /** A persistent 429 carrying `Retry-After: 2` waits exactly 2000 ms before
      each retry, then returns the last 429. */
  lemma PersistentTooManyRequests<B>(body: B, w: seq<Step<B>>, parseDate: DateParser)
    requires |w| == 4
    requires forall j :: 0 <= j < 4 ==> w[j].attempt == Got(FetchResponse(429, map[RETRY_AFTER := "2"], body))
    ensures var r := FetchWithRetry(w, CALLER_OPTIONS, parseDate);
            && r.calls == 4
            && r.result == Ok(FetchResponse(429, map[RETRY_AFTER := "2"], body))
            && r.delays == [2000, 2000, 2000]
  {
  }

  /** `fetchJSON(url)`: the body of a successful response, read as JSON. */
  function FetchJson<T>(w: seq<Step<JsonBody<T>>>, url: string, parseDate: DateParser): (r: Result<T, Error>)
    requires |w| >= 4
    ensures var run := FetchWithRetry(w, CALLER_OPTIONS, parseDate);
            r.Ok? <==> run.result.Ok? && run.result.value.Ok() && run.result.value.body.Parsed?
    ensures var run := FetchWithRetry(w, CALLER_OPTIONS, parseDate);
            r.Ok? ==> r.value == run.result.value.body.value
    ensures var run := FetchWithRetry(w, CALLER_OPTIONS, parseDate);
            run.result.Ok? && !run.result.value.Ok() ==> r == Err(HttpFailure(run.result.value.status, url))
  {
    var run := FetchWithRetry(w, CALLER_OPTIONS, parseDate);
    match run.result
    case Err(e) => Err(e)
    case Ok(res) =>
      if !res.Ok() then Err(HttpFailure(res.status, url))
      else
        match res.body
        case Parsed(v) => Ok(v)
        case Malformed => Err(MalformedJson)
  }

  /** A 304 is terminal for the client but still an error for `fetchJSON`. */
  lemma FetchJsonRejectsNotModified<T>(w: seq<Step<JsonBody<T>>>, url: string, parseDate: DateParser)
    requires |w| >= 4
    requires w[0].attempt.Got? && w[0].attempt.res.status == 304
    ensures FetchJson(w, url, parseDate) == Err(HttpFailure(304, url))
  {
  }
}

=== FILE: http.dfy ===
/** The parts of the Fetch API's `Response` and `Headers` the service relies on. */
module Http {
  import opened Outcomes

  /** A header name as a `Headers` object exposes it: no upper-case ASCII letter. */
  predicate LowerName(name: string) {
    forall i :: 0 <= i < |name| ==> !('A' <= name[i] <= 'Z')
  }

  /** Header names and values. The service writes its own names lower-case. */
  type Headers = map<string, string>

  /** The headers of a received response. Names are case-insensitive and a
      `Headers` object holds them lower-case, so one name has one entry. */
  type ReceivedHeaders = h: Headers | forall k :: k in h ==> LowerName(k)

  /** `headers.get(name)` for a lower-case `name`. */
  function Header(h: Headers, name: string): Option<string> {
    if name in h then Some(h[name]) else None
  }

  /** A response received from `fetch`, with its body already read as a `B`. */
  datatype FetchResponse<B> = FetchResponse(status: int, headers: ReceivedHeaders, body: B) {
    /** `res.ok`: a 2xx status. */
    predicate Ok() {
      200 <= status <= 299
    }
  }

  /** The body a handler puts into a response it builds. */
  datatype Body = NoBody | Text(text: string) | Bytes(bytes: seq<bv8>)

  /** A response the service sends (`new Response(body, { status, headers })`). */
  datatype HttpResponse = HttpResponse(status: int, headers: Headers, body: Body)

  const CONTENT_TYPE := "content-type"
  const CACHE_CONTROL := "cache-control"
}

=== FILE: indexer.dfy ===
/** The indexer: `indexPlatform` republishes one platform's token list as
    logo entries, and `updateIndex` rebuilds the chain/platform registry.

    Each operation returns the ordered list of store writes it issues; the
    resulting store is `Apply(store, writes)`. */
module Indexer {
  import opened Outcomes
  import opened Text
  import opened Numbers
  import opened Kv
  import opened Http
  import opened Fetch
  import opened Bulk

  /** A token's optional `chainId` field, which upstream sends as a number or a string. */
  datatype ChainIdField = NoChainId | NumChainId(n: int) | StrChainId(s: string)

  datatype Token = Token(chainId: ChainIdField, address: Option<string>, logoURI: Option<string>)

  /** The parsed token-list document; `tokens` may be missing. */
  datatype TokenList = TokenList(tokens: Option<seq<Token>>)

  /** One entry of the asset-platform listing. */
  datatype Platform = Platform(id: string, chainIdentifier: Option<int>)

  const TOKEN_LIST_BASE := "https://tokens.coingecko.com/"
  const PLATFORMS_URL := "https://api.coingecko.com/api/v3/asset_platforms"

  function TokenListUrl(platformId: string): string {
    TOKEN_LIST_BASE + platformId + "/all.json"
  }

  /** `chainMap.value?.[chainId]`, where an empty platform id counts as missing. */
  function PlatformFor(store: Store, chainId: int): (pid: Option<string>)
    ensures pid.Some? <==> PLATFORMMAP_KEY in store && store[PLATFORMMAP_KEY].ChainMap?
                           && IntToString(chainId) in store[PLATFORMMAP_KEY].byChainId
                           && store[PLATFORMMAP_KEY].byChainId[IntToString(chainId)] != ""
    ensures pid.Some? ==> pid.value == store[PLATFORMMAP_KEY].byChainId[IntToString(chainId)]
  {
    if PLATFORMMAP_KEY in store && store[PLATFORMMAP_KEY].ChainMap? then
      var m := store[PLATFORMMAP_KEY].byChainId;
      var key := IntToString(chainId);
      if key in m && m[key] != "" then Some(m[key]) else None
    else None
  }

  /** The stored ETag of a platform, where an empty one counts as missing. */
  function PreviousEtag(store: Store, platformId: string): (etag: Option<string>)
    ensures etag.Some? <==> EtagKey(platformId) in store && store[EtagKey(platformId)].Str?
                            && store[EtagKey(platformId)].s != ""
    ensures etag.Some? ==> store[EtagKey(platformId)] == Str(etag.value)
  {
    match GetStr(store, EtagKey(platformId))
    case Some(e) => if e != "" then Some(e) else None
    case None => None
  }

  /** The chain id a token's logo is filed under: its own numeric `chainId`,
      else its all-digit string `chainId` read as a number, else the chain
      being indexed. */
  function EffectiveChainId(field: ChainIdField, chainId: int): (c: int)
    ensures field.NumChainId? ==> c == field.n
    ensures field.StrChainId? && AllDigits(field.s) ==> ParseNumber(field.s) == Some(c) && c >= 0
    ensures field.NoChainId? || (field.StrChainId? && !AllDigits(field.s)) ==> c == chainId
  {
    match field
    case NumChainId(n) => n
    case StrChainId(s) => if AllDigits(s) then DigitsValue(s) else chainId
    case NoChainId => chainId
  }

  /** A token's lower-cased address, if it has a non-empty one. */
  function AddressOf(t: Token): Option<string> {
    if t.address.Some? && Lower(t.address.value) != "" then Some(Lower(t.address.value)) else None
  }

  /** The logo entry a token yields, if it has both an address and a logo URI. */
  function LogoEntry(t: Token, chainId: int): (e: Option<Write>)
    ensures e.Some? <==> AddressOf(t).Some? && t.logoURI.Some? && t.logoURI.value != ""
    ensures e.Some? ==> e.value == Write(LogoKey(EffectiveChainId(t.chainId, chainId), t.address.value), Str(t.logoURI.value))
  {
    var address := AddressOf(t);
    var logo := t.logoURI;
    if address.None? || logo.None? || logo.value == "" then None
    else
      LowerIdempotent(t.address.value);
      Some(Write(LogoKey(EffectiveChainId(t.chainId, chainId), address.value), Str(logo.value)))
  }

  /** The `sets` array built from a token list, in token order. */
  function LogoEntries(tokens: seq<Token>, chainId: int): (entries: seq<Write>)
    ensures |entries| <= |tokens|
    ensures forall e :: e in entries ==> IsLogoKey(e.key) && e.key[2] == Lower(e.key[2]) && e.key[2] != ""
    ensures forall e :: e in entries ==> e.value.Str? && e.value.s != ""
    ensures forall e :: e in entries <==> exists i :: 0 <= i < |tokens| && LogoEntry(tokens[i], chainId) == Some(e)
    decreases |tokens|
  {
    if |tokens| == 0 then []
    else
      var rest := LogoEntries(tokens[1..], chainId);
      assert forall i :: 0 <= i < |tokens| - 1 ==> tokens[1..][i] == tokens[i + 1];
      match LogoEntry(tokens[0], chainId)
      case Some(e) =>
        LowerIdempotent(tokens[0].address.value);
        [e] + rest
      case None => rest
  }

  /** One token contributes its own entry, if it has one, and nothing else. */
  lemma LogoEntriesSingle(t: Token, chainId: int)
    ensures LogoEntries([t], chainId) == (if LogoEntry(t, chainId).Some? then [LogoEntry(t, chainId).value] else [])
  {
  }

  /** Entries of a split list are the entries of its parts in order: together
      with `LogoEntriesSingle`, one entry per usable token, in token order. */
  lemma {:induction false} LogoEntriesConcat(a: seq<Token>, b: seq<Token>, chainId: int)
    ensures LogoEntries(a + b, chainId) == LogoEntries(a, chainId) + LogoEntries(b, chainId)
    decreases |a|
  {
    if |a| > 0 {
      assert (a + b)[0] == a[0];
      assert (a + b)[1..] == a[1..] + b;
      LogoEntriesConcat(a[1..], b, chainId);
    } else {
      assert a + b == b;
    }
  }

  /** The ETag write that closes a successful run, when the response carried a non-empty `etag`. */
  function EtagWrites(platformId: string, etag: Option<string>): seq<Write> {
    if etag.Some? && etag.value != "" then [Write(EtagKey(platformId), Str(etag.value))] else []
  }

  /** The writes of a successful run: `setMany(sets)`, then the ETag.
      Every write but the last is a logo write, so the ETag comes last. */
  function RepublishWrites(platformId: string, sets: seq<Write>, etag: Option<string>): (writes: seq<Write>)
    requires forall e :: e in sets ==> IsLogoKey(e.key) && e.value.Str?
    ensures |sets| <= |writes| <= |sets| + 1
    ensures forall i :: 0 <= i < |writes| - 1 ==> IsLogoKey(writes[i].key)
    ensures forall i :: 0 <= i < |writes| ==> ShapedFor(writes[i].key, writes[i].value)
  {
    var drained := DrainOrder(sets);
    var writes := drained + EtagWrites(platformId, etag);
    KeyNamespacesDisjoint(0, "", platformId);
    forall i | 0 <= i < |drained|
      ensures writes[i] == drained[i] && drained[i] in sets
      ensures ShapedFor(writes[i].key, writes[i].value)
    {
      assert drained[i] == sets[|sets| - 1 - i];
      assert sets[|sets| - 1 - i] in sets;
      LogoWriteShaped(writes[i].key, writes[i].value);
    }
    writes
  }

  /** How `indexPlatform` ended. */
  datatype IndexOutcome =
    | NoPlatform                    // no platform id for the chain: soft skip
    | NetworkGaveUp(error: Error)   // every attempt failed at the network level
    | NotModified                   // 304: the stored entries are current
    | HttpFailed(status: int)       // a non-ok status after retries
    | Threw(error: Error)           // the body was not JSON: the promise rejects
    | Indexed(count: nat)           // `count` entries were written

  /** The conditional GET issued for the token list. */
  datatype ConditionalGet = ConditionalGet(url: string, ifNoneMatch: Option<string>)

  datatype IndexRun = IndexRun(outcome: IndexOutcome, request: Option<ConditionalGet>, writes: seq<Write>)

  /** `indexPlatform(chainId)`. `w` is what the world supplies to each of the
      (at most four) fetches of the token list. */
  function IndexPlatform(chainId: int, store: Store, w: seq<Step<JsonBody<TokenList>>>, parseDate: DateParser): (run: IndexRun)
    requires |w| >= 4
    ensures run.request.None? <==> PlatformFor(store, chainId).None?
    ensures run.request.None? ==> run.outcome == NoPlatform && run.writes == []
    ensures run.request.Some? ==>
              var pid := PlatformFor(store, chainId).value;
              && run.request.value.url == TokenListUrl(pid)
              && (run.request.value.ifNoneMatch.Some? <==> EtagKey(pid) in store && store[EtagKey(pid)].Str? && store[EtagKey(pid)].s != "")
              && (run.request.value.ifNoneMatch.Some? ==> store[EtagKey(pid)] == Str(run.request.value.ifNoneMatch.value))
    ensures run.request.Some? ==>
              var r := FetchWithRetry(w, CALLER_OPTIONS, parseDate).result;
              && (r.Err? ==> run.outcome == NetworkGaveUp(r.error))
              && (r.Ok? && r.value.status == 304 ==> run.outcome == NotModified)
              && (r.Ok? && r.value.status != 304 && !r.value.Ok() ==> run.outcome == HttpFailed(r.value.status))
              && (r.Ok? && r.value.Ok() && r.value.body.Malformed? ==> run.outcome == Threw(MalformedJson))
              && (r.Ok? && r.value.Ok() && r.value.body.Parsed? ==> run.outcome.Indexed?)
    ensures !run.outcome.Indexed? ==> run.writes == []
    ensures run.outcome.Indexed? ==> run.outcome.count <= |run.writes| <= run.outcome.count + 1
    ensures forall i :: 0 <= i < |run.writes| - 1 ==> IsLogoKey(run.writes[i].key)
    ensures forall i :: 0 <= i < |run.writes| ==> ShapedFor(run.writes[i].key, run.writes[i].value)
  {
    match PlatformFor(store, chainId)
    case None => IndexRun(NoPlatform, None, [])
    case Some(platformId) =>
      var etagPrev := PreviousEtag(store, platformId);
      var request := ConditionalGet(TokenListUrl(platformId), etagPrev);
      var fetched := FetchWithRetry(w, CALLER_OPTIONS, parseDate);
      match fetched.result
      case Err(e) => IndexRun(NetworkGaveUp(e), Some(request), [])
      case Ok(res) =>
        if res.status == 304 then IndexRun(NotModified, Some(request), [])
        else if !res.Ok() then IndexRun(HttpFailed(res.status), Some(request), [])
        else
          match res.body
          case Malformed => IndexRun(Threw(MalformedJson), Some(request), [])
          case Parsed(list) =>
            var sets := LogoEntries(list.tokens.GetOr([]), chainId);
            IndexRun(Indexed(|sets|), Some(request), RepublishWrites(platformId, sets, Header(res.headers, "etag")))
  }

  /** The outcome of a successful run: the logo entries of the token list in
      drain order, followed by the ETag write exactly when the response
      carried a non-empty `etag` header. */
  lemma IndexedRunWrites(chainId: int, store: Store, w: seq<Step<JsonBody<TokenList>>>, parseDate: DateParser)
    requires |w| >= 4
    requires PlatformFor(store, chainId).Some?
    requires var r := FetchWithRetry(w, CALLER_OPTIONS, parseDate).result;
             r.Ok? && r.value.Ok() && r.value.body.Parsed?
    ensures var pid := PlatformFor(store, chainId).value;
            var res := FetchWithRetry(w, CALLER_OPTIONS, parseDate).result.value;
            var entries := LogoEntries(res.body.value.tokens.GetOr([]), chainId);
            var run := IndexPlatform(chainId, store, w, parseDate);
            && run.outcome == Indexed(|entries|)
            && run.writes[..|entries|] == DrainOrder(entries)
            && (var etag := Header(res.headers, "etag");
                if etag.Some? && etag.value != ""
                then |run.writes| == |entries| + 1 && run.writes[|entries|] == Write(EtagKey(pid), Str(etag.value))
                else |run.writes| == |entries|)
  {
  }

  /** A 304, a non-ok status after retries, a network failure after retries,
      a 2xx body that is not JSON and a missing platform all leave the store
      exactly as it was, ETag included. */
  lemma FailedRunLeavesStore(chainId: int, store: Store, w: seq<Step<JsonBody<TokenList>>>, parseDate: DateParser)
    requires |w| >= 4
    requires var r := FetchWithRetry(w, CALLER_OPTIONS, parseDate).result;
             PlatformFor(store, chainId).None? || r.Err? || !r.value.Ok() || r.value.body.Malformed?
    ensures var run := IndexPlatform(chainId, store, w, parseDate);
            Apply(store, run.writes) == store
    ensures var run := IndexPlatform(chainId, store, w, parseDate);
            var r := FetchWithRetry(w, CALLER_OPTIONS, parseDate).result;
            PlatformFor(store, chainId).Some? && r.Ok? && r.value.status == 304 ==> run.outcome == NotModified
    ensures var run := IndexPlatform(chainId, store, w, parseDate);
            var r := FetchWithRetry(w, CALLER_OPTIONS, parseDate).result;
            PlatformFor(store, chainId).Some? && r.Ok? && r.value.Ok() && r.value.body.Malformed? ==>
              run.outcome == Threw(MalformedJson) && run.writes == []
  {
  }

  /** Indexing keeps every slot of the store holding the right shape of value. */
  lemma IndexKeepsShape(chainId: int, store: Store, w: seq<Step<JsonBody<TokenList>>>, parseDate: DateParser)
    requires |w| >= 4
    requires WellShaped(store)
    ensures WellShaped(Apply(store, IndexPlatform(chainId, store, w, parseDate).writes))
  {
    ApplyKeepsShape(store, IndexPlatform(chainId, store, w, parseDate).writes);
  }

  /** A token whose `chainId` is the string "137" is filed under chain 137,
      whatever chain is being indexed. */
  lemma StringChainIdWins(indexing: int, address: string, logo: string)
    requires Lower(address) != "" && logo != ""
    ensures LogoEntry(Token(StrChainId("137"), Some(address), Some(logo)), indexing)
            == Some(Write(LogoKey(137, address), Str(logo)))
  {
    assert AllDigits("137");
    assert DigitsValue("137") == 137 by {
      assert "137"[..2] == "13" && "13"[..1] == "1" && "1"[..0] == "";
    }
  }

  /** Only platforms with a chain identifier enter the registry. */
  predicate Included(p: Platform) {
    p.chainIdentifier.Some?
  }

  /** No later included platform has the chain identifier of platform `i`. */
  predicate LastWithChain(ps: seq<Platform>, i: nat)
    requires i < |ps|
  {
    Included(ps[i]) && forall j :: i < j < |ps| && Included(ps[j]) ==> ps[j].chainIdentifier != ps[i].chainIdentifier
  }

  /** No later included platform has the id of platform `i`. */
  predicate LastWithId(ps: seq<Platform>, i: nat)
    requires i < |ps|
  {
    Included(ps[i]) && forall j :: i < j < |ps| && Included(ps[j]) ==> ps[j].id != ps[i].id
  }

  /** The two registry maps, built in one pass over the listing: chain id
      (as a string) to platform id, and platform id to chain id. */
  function BuildMaps(ps: seq<Platform>): (maps: (map<string, string>, map<string, int>))
    ensures |ps| > 0 && Included(ps[|ps| - 1]) ==>
              && IntToString(ps[|ps| - 1].chainIdentifier.value) in maps.0
              && maps.0[IntToString(ps[|ps| - 1].chainIdentifier.value)] == ps[|ps| - 1].id
              && ps[|ps| - 1].id in maps.1
              && maps.1[ps[|ps| - 1].id] == ps[|ps| - 1].chainIdentifier.value
    decreases |ps|
  {
    if |ps| == 0 then (map[], map[])
    else
      var (chainMap, revMap) := BuildMaps(ps[..|ps| - 1]);
      var p := ps[|ps| - 1];
      if p.chainIdentifier.Some? then
        (chainMap[IntToString(p.chainIdentifier.value) := p.id], revMap[p.id := p.chainIdentifier.value])
      else (chainMap, revMap)
  }

  /** A chain key is in the registry exactly when some included platform has that chain identifier. */
  lemma {:induction false} ChainMapDomain(ps: seq<Platform>, k: string)
    ensures k in BuildMaps(ps).0 <==> exists i :: 0 <= i < |ps| && Included(ps[i]) && k == IntToString(ps[i].chainIdentifier.value)
    decreases |ps|
  {
    if |ps| > 0 {
      var init := ps[..|ps| - 1];
      var last := |ps| - 1;
      ChainMapDomain(init, k);
      if k in BuildMaps(ps).0 && !(Included(ps[last]) && k == IntToString(ps[last].chainIdentifier.value)) {
        var i :| 0 <= i < |init| && Included(init[i]) && k == IntToString(init[i].chainIdentifier.value);
        assert init[i] == ps[i];
      }
      if exists i :: 0 <= i < |ps| && Included(ps[i]) && k == IntToString(ps[i].chainIdentifier.value) {
        var i :| 0 <= i < |ps| && Included(ps[i]) && k == IntToString(ps[i].chainIdentifier.value);
        if i < last {
          assert init[i] == ps[i];
        }
      }
    }
  }

  /** A platform id is in the reverse map exactly when some included platform has that id. */
  lemma {:induction false} RevMapDomain(ps: seq<Platform>, id: string)
    ensures id in BuildMaps(ps).1 <==> exists i :: 0 <= i < |ps| && Included(ps[i]) && ps[i].id == id
    decreases |ps|
  {
    if |ps| > 0 {
      var init := ps[..|ps| - 1];
      var last := |ps| - 1;
      RevMapDomain(init, id);
      if id in BuildMaps(ps).1 && !(Included(ps[last]) && ps[last].id == id) {
        var i :| 0 <= i < |init| && Included(init[i]) && init[i].id == id;
        assert init[i] == ps[i];
      }
      if exists i :: 0 <= i < |ps| && Included(ps[i]) && ps[i].id == id {
        var i :| 0 <= i < |ps| && Included(ps[i]) && ps[i].id == id;
        if i < last {
          assert init[i] == ps[i];
        }
      }
    }
  }

  /** The platform listed last for a chain is the one the chain maps to; the
      chain listed last for a platform id is the one the id maps to. */
  lemma {:induction false} BuildMapsLatestWins(ps: seq<Platform>, i: nat)
    requires i < |ps|
    ensures LastWithChain(ps, i) ==>
              IntToString(ps[i].chainIdentifier.value) in BuildMaps(ps).0
              && BuildMaps(ps).0[IntToString(ps[i].chainIdentifier.value)] == ps[i].id
    ensures LastWithId(ps, i) ==>
              ps[i].id in BuildMaps(ps).1 && BuildMaps(ps).1[ps[i].id] == ps[i].chainIdentifier.value
    decreases |ps|
  {
    var init := ps[..|ps| - 1];
    var p := ps[|ps| - 1];
    if i < |ps| - 1 {
      assert init[i] == ps[i];
      assert LastWithChain(ps, i) ==> LastWithChain(init, i) by {
        if LastWithChain(ps, i) {
          forall j | i < j < |init| && Included(init[j])
            ensures init[j].chainIdentifier != init[i].chainIdentifier
          {
            assert init[j] == ps[j];
          }
        }
      }
      assert LastWithId(ps, i) ==> LastWithId(init, i) by {
        if LastWithId(ps, i) {
          forall j | i < j < |init| && Included(init[j])
            ensures init[j].id != init[i].id
          {
            assert init[j] == ps[j];
          }
        }
      }
      BuildMapsLatestWins(init, i);
      if Included(p) && Included(ps[i]) {
        IntToStringInjective(ps[i].chainIdentifier.value, p.chainIdentifier.value);
      }
    }
  }

  /** How `updateIndex` ended: `failure` is the error it raised, if any. */
  datatype RegistryRun = RegistryRun(failure: Option<Error>, writes: seq<Write>)

  /** `updateIndex()`. If fetching the listing raises, nothing is written;
      otherwise both maps are written, from the same pass. */
  function UpdateIndex(w: seq<Step<JsonBody<seq<Platform>>>>, parseDate: DateParser): (run: RegistryRun)
    requires |w| >= 4
    ensures run.failure.Some? <==> FetchJson(w, PLATFORMS_URL, parseDate).Err?
    ensures run.failure.Some? ==> run.writes == []
    ensures run.failure.None? ==>
              var maps := BuildMaps(FetchJson(w, PLATFORMS_URL, parseDate).value);
              run.writes == [Write(PLATFORMMAP_KEY, ChainMap(maps.0)), Write(REVMAP_KEY, RevMap(maps.1))]
  {
    match FetchJson(w, PLATFORMS_URL, parseDate)
    case Err(e) => RegistryRun(Some(e), [])
    case Ok(platforms) =>
      var (chainMap, revMap) := BuildMaps(platforms);
      RegistryRun(None, [Write(PLATFORMMAP_KEY, ChainMap(chainMap)), Write(REVMAP_KEY, RevMap(revMap))])
  }

  /** After a successful registry refresh, indexing a chain finds the platform
      listed last for that chain (when its id is not empty). */
  lemma RegistryFeedsIndexer(store: Store, w: seq<Step<JsonBody<seq<Platform>>>>, parseDate: DateParser, i: nat)
    requires |w| >= 4
    requires FetchJson(w, PLATFORMS_URL, parseDate).Ok?
    requires var ps := FetchJson(w, PLATFORMS_URL, parseDate).value;
             i < |ps| && LastWithChain(ps, i) && ps[i].id != ""
    ensures var ps := FetchJson(w, PLATFORMS_URL, parseDate).value;
            var store' := Apply(store, UpdateIndex(w, parseDate).writes);
            PlatformFor(store', ps[i].chainIdentifier.value) == Some(ps[i].id)
  {
    var ps := FetchJson(w, PLATFORMS_URL, parseDate).value;
    var maps := BuildMaps(ps);
    BuildMapsLatestWins(ps, i);
    KeyNamespacesDisjoint(0, "", "");
    var store' := Apply(store, UpdateIndex(w, parseDate).writes);
    var writes := [Write(PLATFORMMAP_KEY, ChainMap(maps.0)), Write(REVMAP_KEY, RevMap(maps.1))];
    var s1 := store[PLATFORMMAP_KEY := ChainMap(maps.0)];
    assert UpdateIndex(w, parseDate).writes == writes;
    assert writes[1..] == [writes[1]] && [writes[1]][1..] == [];
    assert Apply(store, writes) == Apply(s1, [writes[1]]);
    assert Apply(s1, [writes[1]]) == Apply(s1[REVMAP_KEY := RevMap(maps.1)], []);
    assert store' == store[PLATFORMMAP_KEY := ChainMap(maps.0)][REVMAP_KEY := RevMap(maps.1)];
  }

  /** A registry refresh keeps every slot of the store holding the right shape of value. */
  lemma UpdateKeepsShape(store: Store, w: seq<Step<JsonBody<seq<Platform>>>>, parseDate: DateParser)
    requires |w| >= 4
    requires WellShaped(store)
    ensures WellShaped(Apply(store, UpdateIndex(w, parseDate).writes))
  {
    KeyNamespacesDisjoint(0, "", "");
    ApplyKeepsShape(store, UpdateIndex(w, parseDate).writes);
  }
}

=== FILE: kv.dfy ===
/** The persistent key-value store and the key layout the service uses in it.

    Keys are tuples of strings; the store is a finite map. A write replaces a
    whole value, and writes are applied in the order they are issued. */
module Kv {
  import opened Outcomes
  import opened Text
  import opened Numbers

  type Key = seq<string>

  /** The three shapes of value the service stores. */
  datatype Value =
    | Str(s: string)                               // a logo URL or an ETag
    | ChainMap(byChainId: map<string, string>)     // String(chain id) -> platform id
    | RevMap(byPlatformId: map<string, int>)       // platform id -> chain id

  type Store = map<Key, Value>

  datatype Write = Write(key: Key, value: Value)

  /** `LOGO_KEY(chainId, address)`. */
  function LogoKey(chainId: int, address: string): Key {
    ["logo", IntToString(chainId), Lower(address)]
  }

  /** `ETAG_KEY(platformId)`. */
  function EtagKey(platformId: string): Key {
    ["etag", platformId]
  }

  const PLATFORMMAP_KEY: Key := ["platformMap", "byChainId"]
  const REVMAP_KEY: Key := ["platformMap", "byPlatformId"]

  /** A logo key ignores the case of the address. */
  lemma LogoKeyCaseInsensitive(chainId: int, address: string)
    ensures LogoKey(chainId, address) == LogoKey(chainId, Lower(address))
    ensures LogoKey(chainId, address)[2] == Lower(address)
  {
    LowerIdempotent(address);
  }

  /** Two logo keys coincide exactly when the chain ids are equal and the
      addresses are equal up to case. */
  lemma LogoKeyInjective(c1: int, a1: string, c2: int, a2: string)
    ensures LogoKey(c1, a1) == LogoKey(c2, a2) <==> c1 == c2 && Lower(a1) == Lower(a2)
  {
    IntToStringInjective(c1, c2);
    if LogoKey(c1, a1) == LogoKey(c2, a2) {
      assert LogoKey(c1, a1)[1] == LogoKey(c2, a2)[1];
      assert LogoKey(c1, a1)[2] == LogoKey(c2, a2)[2];
    }
  }

  predicate IsLogoKey(k: Key) {
    |k| == 3 && k[0] == "logo"
  }

  predicate IsEtagKey(k: Key) {
    |k| == 2 && k[0] == "etag"
  }

  /** The four key namespaces never collide. */
  lemma KeyNamespacesDisjoint(chainId: int, address: string, platformId: string)
    ensures IsLogoKey(LogoKey(chainId, address)) && !IsEtagKey(LogoKey(chainId, address))
    ensures IsEtagKey(EtagKey(platformId)) && !IsLogoKey(EtagKey(platformId))
    ensures LogoKey(chainId, address) !in {EtagKey(platformId), PLATFORMMAP_KEY, REVMAP_KEY}
    ensures EtagKey(platformId) !in {PLATFORMMAP_KEY, REVMAP_KEY}
    ensures PLATFORMMAP_KEY != REVMAP_KEY
  {
  }

  /** The string stored under `k`, if any. A slot holding another shape of value reads as absent. */
  function GetStr(store: Store, k: Key): Option<string> {
    if k in store && store[k].Str? then Some(store[k].s) else None
  }

  /** Issues the writes one after another. */
  function Apply(store: Store, writes: seq<Write>): Store
    decreases |writes|
  {
    if |writes| == 0 then store
    else Apply(store[writes[0].key := writes[0].value], writes[1..])
  }

  predicate Writes(writes: seq<Write>, k: Key) {
    exists i :: 0 <= i < |writes| && writes[i].key == k
  }

  /** A key no write mentions keeps its presence and its value. */
  lemma {:induction false} ApplyUnwritten(store: Store, writes: seq<Write>, k: Key)
    requires !Writes(writes, k)
    ensures k in Apply(store, writes) <==> k in store
    ensures k in store ==> Apply(store, writes)[k] == store[k]
    decreases |writes|
  {
    if |writes| > 0 {
      assert writes[0].key != k;
      forall i | 0 <= i < |writes| - 1
        ensures writes[1..][i].key != k
      {
        assert writes[1..][i] == writes[i + 1];
      }
      ApplyUnwritten(store[writes[0].key := writes[0].value], writes[1..], k);
    }
  }

  /** The last write to a key decides its value. */
  lemma {:induction false} ApplyLastWrite(store: Store, writes: seq<Write>, i: nat)
    requires i < |writes|
    requires forall j :: i < j < |writes| ==> writes[j].key != writes[i].key
    ensures writes[i].key in Apply(store, writes)
    ensures Apply(store, writes)[writes[i].key] == writes[i].value
    decreases |writes|
  {
    var k := writes[i].key;
    var s1 := store[writes[0].key := writes[0].value];
    if i == 0 {
      forall j | 0 <= j < |writes| - 1
        ensures writes[1..][j].key != k
      {
        assert writes[1..][j] == writes[j + 1];
      }
      ApplyUnwritten(s1, writes[1..], k);
    } else {
      assert writes[1..][i - 1] == writes[i];
      ApplyLastWrite(s1, writes[1..], i - 1);
    }
  }

  /** Applying two batches one after the other is applying their concatenation. */
  lemma {:induction false} ApplyConcat(store: Store, a: seq<Write>, b: seq<Write>)
    ensures Apply(store, a + b) == Apply(Apply(store, a), b)
    decreases |a|
  {
    if |a| > 0 {
      assert (a + b)[0] == a[0];
      assert (a + b)[1..] == a[1..] + b;
      ApplyConcat(store[a[0].key := a[0].value], a[1..], b);
    } else {
      assert a + b == b;
    }
  }

  /** The value a key's namespace calls for. */
  predicate ShapedFor(k: Key, v: Value) {
    && (k == PLATFORMMAP_KEY ==> v.ChainMap?)
    && (k == REVMAP_KEY ==> v.RevMap?)
    && (IsLogoKey(k) || IsEtagKey(k) ==> v.Str?)
  }

  /** A string under a logo key is well-shaped. */
  lemma LogoWriteShaped(k: Key, v: Value)
    requires IsLogoKey(k) && v.Str?
    ensures ShapedFor(k, v)
  {
  }

  /** Every slot holds the shape of value its namespace calls for. */
  predicate WellShaped(s: Store) {
    forall k :: k in s ==> ShapedFor(k, s[k])
  }

  /** Writes of well-shaped values keep a well-shaped store well-shaped. */
  lemma {:induction false} ApplyKeepsShape(store: Store, writes: seq<Write>)
    requires WellShaped(store)
    requires forall i :: 0 <= i < |writes| ==> ShapedFor(writes[i].key, writes[i].value)
    ensures WellShaped(Apply(store, writes))
    decreases |writes|
  {
    if |writes| > 0 {
      var s1 := store[writes[0].key := writes[0].value];
      forall i | 0 <= i < |writes| - 1
        ensures ShapedFor(writes[1..][i].key, writes[1..][i].value)
      {
        assert writes[1..][i] == writes[i + 1];
      }
      ApplyKeepsShape(s1, writes[1..]);
    }
  }
}

=== FILE: numbers.dfy ===
/** JavaScript's `Number(s)` and `String(n)`, restricted to integers.

    `Number` is modelled on the empty string (which it maps to 0) and on an
    optional sign followed by ASCII digits; every other string is treated as
    a value that `Number.isFinite` rejects. `String` of an integer is its
    canonical decimal form. */
module Numbers {
  import opened Outcomes

  predicate IsDigit(c: char) {
    '0' <= c <= '9'
  }

  /** The regular expression `^\d+$`. */
  predicate AllDigits(s: string) {
    |s| > 0 && forall i :: 0 <= i < |s| ==> IsDigit(s[i])
  }

  function DigitValue(c: char): nat
    requires IsDigit(c)
  {
    c as int - '0' as int
  }

  function DigitChar(d: nat): (c: char)
    requires d < 10
    ensures IsDigit(c) && DigitValue(c) == d
  {
    ('0' as int + d) as char
  }

  /** The value of a digit string read in base ten (leading zeros allowed). */
  function DigitsValue(s: string): nat
    requires forall i :: 0 <= i < |s| ==> IsDigit(s[i])
    decreases |s|
  {
    if |s| == 0 then 0
    else DigitsValue(s[..|s|-1]) * 10 + DigitValue(s[|s|-1])
  }

  /** `String(n)` for a natural number: decimal digits, no leading zero. */
  function NatToString(n: nat): (s: string)
    ensures AllDigits(s)
    ensures s[0] == '0' ==> n == 0
    decreases n
  {
    if n < 10 then [DigitChar(n)] else NatToString(n / 10) + [DigitChar(n % 10)]
  }

  /** `String(n)` for an integer. */
  function IntToString(n: int): (s: string)
    ensures |s| > 0
    ensures n >= 0 <==> IsDigit(s[0])
  {
    if n < 0 then "-" + NatToString(-n) else NatToString(n)
  }

  /** `Number(s)` where that is a finite integer; `None` stands for a
      value `Number.isFinite` rejects. */
  function ParseNumber(s: string): (r: Option<int>)
    ensures AllDigits(s) ==> r == Some(DigitsValue(s))
    ensures s == "" ==> r == Some(0)
    ensures s != "" && s[0] == '-' && AllDigits(s[1..]) ==> r == Some(-(DigitsValue(s[1..]) as int))
    ensures s != "" && s[0] == '+' && AllDigits(s[1..]) ==> r == Some(DigitsValue(s[1..]))
    ensures r.None? <==> s != "" && !AllDigits(s) && !((s[0] == '-' || s[0] == '+') && AllDigits(s[1..]))
  {
    if |s| == 0 then Some(0)
    else if AllDigits(s) then Some(DigitsValue(s))
    else if (s[0] == '-' || s[0] == '+') && AllDigits(s[1..]) then
      var v: int := DigitsValue(s[1..]);
      Some(if s[0] == '-' then -v else v)
    else None
  }

  /** Reading back the decimal form of a natural number gives the number. */
  lemma {:induction false} DigitsValueNatToString(n: nat)
    ensures DigitsValue(NatToString(n)) == n
    decreases n
  {
    if n >= 10 {
      var s := NatToString(n);
      DigitsValueNatToString(n / 10);
      assert s[..|s|-1] == NatToString(n / 10);
    }
  }

  /** Round trip: `Number(String(n)) == n` for every integer. */
  lemma ParseIntToString(n: int)
    ensures ParseNumber(IntToString(n)) == Some(n)
  {
    if n < 0 {
      var s := IntToString(n);
      assert s[1..] == NatToString(-n);
      DigitsValueNatToString(-n);
    } else {
      DigitsValueNatToString(n);
    }
  }

  /** `String` is injective on integers, so distinct chain ids give distinct keys. */
  lemma IntToStringInjective(a: int, b: int)
    ensures IntToString(a) == IntToString(b) <==> a == b
  {
    if IntToString(a) == IntToString(b) {
      ParseIntToString(a);
      ParseIntToString(b);
    }
  }
}

=== FILE: outcomes.dfy ===
/** Optional values and results, standing in for JavaScript's `null`/`undefined`
    and for a rejected promise. */
module Outcomes {

  datatype Option<+T> = None | Some(value: T) {
    function GetOr(default: T): T {
      match this
      case Some(v) => v
      case None => default
    }
  }

  /** A computation that either returned `value` or raised `error`. */
  datatype Result<+T, +E> = Ok(value: T) | Err(error: E)
}

=== FILE: pipeline.dfy ===
/** End-to-end properties across the refresh and serve halves of the service. */
module Pipeline {
  import opened Outcomes
  import opened Text
  import opened Numbers
  import opened Kv
  import opened Http
  import opened Fetch
  import opened Bulk
  import opened Indexer
  import opened Server
  import opened Proxy

  /** A logo written by a drain and left alone by the ETag writes after it is
      what the responder resolves. */
  lemma DrainedLogoResolves(store: Store, entries: seq<Write>, etagWrites: seq<Write>, chainId: int, address: string, logo: string)
    requires logo != ""
    requires forall e :: e in entries && e.key == LogoKey(chainId, address) ==> e.value == Str(logo)
    requires Write(LogoKey(chainId, address), Str(logo)) in entries
    requires forall e :: e in etagWrites ==> IsEtagKey(e.key)
    ensures ResolveLogo(Apply(store, DrainOrder(entries) + etagWrites), chainId, address) == logo
  {
    var k := LogoKey(chainId, address);
    var i :| 0 <= i < |entries| && entries[i] == Write(k, Str(logo));
    var f := FirstIndex(entries, i);
    DrainWrites(store, entries);
    var s1 := Apply(store, DrainOrder(entries));
    assert s1[k] == entries[f].value;
    assert entries[f] in entries;
    KeyNamespacesDisjoint(chainId, address, "");
    ApplyConcat(store, DrainOrder(entries), etagWrites);
    forall j | 0 <= j < |etagWrites|
      ensures etagWrites[j].key != k
    {
      assert etagWrites[j] in etagWrites;
    }
    ApplyUnwritten(s1, etagWrites, k);
  }

  /** A successful run writes the drained entries, then only ETag keys. */
  lemma IndexedWritesSplit(chainId: int, store: Store, w: seq<Step<JsonBody<TokenList>>>, parseDate: DateParser)
    requires |w| >= 4
    requires PlatformFor(store, chainId).Some?
    requires var r := FetchWithRetry(w, CALLER_OPTIONS, parseDate).result;
             r.Ok? && r.value.Ok() && r.value.body.Parsed?
    ensures var tokens := FetchWithRetry(w, CALLER_OPTIONS, parseDate).result.value.body.value.tokens.GetOr([]);
            var entries := LogoEntries(tokens, chainId);
            var run := IndexPlatform(chainId, store, w, parseDate);
            && |entries| <= |run.writes|
            && run.writes == DrainOrder(entries) + run.writes[|entries|..]
            && forall x :: x in run.writes[|entries|..] ==> IsEtagKey(x.key)
  {
    var pid := PlatformFor(store, chainId).value;
    IndexedRunWrites(chainId, store, w, parseDate);
    KeyNamespacesDisjoint(0, "", pid);
  }

  /** A token that a successful `indexPlatform` run filed is served from the
      cache afterwards, provided every token of the list that yields the same
      key carries the same logo: the cache resolves its address, and a request
      for `/token/<chain id>/<address>` streams its logo URI. Its address must
      pass the handler's check; the indexer files any non-empty address. */
  lemma IndexedTokenIsServed(chainId: int, store: Store, w: seq<Step<JsonBody<TokenList>>>, parseDate: DateParser, k: nat, fetch: ImageFetch)
    requires |w| >= 4
    requires PlatformFor(store, chainId).Some?
    requires var r := FetchWithRetry(w, CALLER_OPTIONS, parseDate).result;
             r.Ok? && r.value.Ok() && r.value.body.Parsed?
    requires var tokens := FetchWithRetry(w, CALLER_OPTIONS, parseDate).result.value.body.value.tokens.GetOr([]);
             && k < |tokens|
             && LogoEntry(tokens[k], chainId).Some?
             && forall j :: 0 <= j < |tokens| && LogoEntry(tokens[j], chainId).Some?
                              && LogoEntry(tokens[j], chainId).value.key == LogoEntry(tokens[k], chainId).value.key ==>
                  LogoEntry(tokens[j], chainId).value.value == LogoEntry(tokens[k], chainId).value.value
    requires var t := FetchWithRetry(w, CALLER_OPTIONS, parseDate).result.value.body.value.tokens.GetOr([])[k];
             IsAddress(Lower(t.address.value))
    ensures var t := FetchWithRetry(w, CALLER_OPTIONS, parseDate).result.value.body.value.tokens.GetOr([])[k];
            var store' := Apply(store, IndexPlatform(chainId, store, w, parseDate).writes);
            ResolveLogo(store', EffectiveChainId(t.chainId, chainId), t.address.value) == t.logoURI.value
    ensures var t := FetchWithRetry(w, CALLER_OPTIONS, parseDate).result.value.body.value.tokens.GetOr([])[k];
            var store' := Apply(store, IndexPlatform(chainId, store, w, parseDate).writes);
            ServeToken(IntToString(EffectiveChainId(t.chainId, chainId)), t.address.value, store', fetch) == StreamThrough(t.logoURI.value, fetch)
  {
    var res := FetchWithRetry(w, CALLER_OPTIONS, parseDate).result.value;
    var tokens := res.body.value.tokens.GetOr([]);
    var t := tokens[k];
    var e := LogoEntry(t, chainId).value;
    var c := EffectiveChainId(t.chainId, chainId);
    var entries := LogoEntries(tokens, chainId);
    var pid := PlatformFor(store, chainId).value;
    var run := IndexPlatform(chainId, store, w, parseDate);
    IndexedWritesSplit(chainId, store, w, parseDate);
    var etagWrites := run.writes[|entries|..];
    forall x | x in entries && x.key == LogoKey(c, t.address.value)
      ensures x.value == Str(t.logoURI.value)
    {
      var j :| 0 <= j < |tokens| && LogoEntry(tokens[j], chainId) == Some(x);
    }
    DrainedLogoResolves(store, entries, etagWrites, c, t.address.value, t.logoURI.value);
    LogoKeyCaseInsensitive(c, t.address.value);
    DrainedLogoResolves(store, entries, etagWrites, c, Lower(t.address.value), t.logoURI.value);
    ServesResolvedLogo(c, t.address.value, Apply(store, run.writes), fetch, t.logoURI.value);
  }
}

=== FILE: proxy.dfy ===
/** The image side of the responder: the identicon placeholder, IPFS URL
    rewriting, and `streamThrough`'s status and header handling. */
module Proxy {
  import opened Outcomes
  import opened Text
  import opened Numbers
  import opened Http
  import opened Constants

  const IDENTICON_BASE := "https://avatars.z52da5wt.xyz/"

  /** `IDENTICON(chainId, address)`: a placeholder keyed by `chainId:address`. */
  function Identicon(chainId: int, address: string): (url: string)
    ensures StartsWith(url, IDENTICON_BASE)
    ensures |url| == |IDENTICON_BASE| + |IntToString(chainId)| + 1 + |address|
    ensures url[|IDENTICON_BASE|..|IDENTICON_BASE| + |IntToString(chainId)|] == IntToString(chainId)
    ensures url[|IDENTICON_BASE| + |IntToString(chainId)|] == ':'
    ensures url[|IDENTICON_BASE| + |IntToString(chainId)| + 1..] == Lower(address)
  {
    IDENTICON_BASE + (IntToString(chainId) + ":" + Lower(address))
  }

  /** The placeholder depends on the address only up to case. */
  lemma IdenticonCaseInsensitive(chainId: int, address: string)
    ensures Identicon(chainId, address) == Identicon(chainId, Lower(address))
    ensures StartsWith(Identicon(chainId, address), IDENTICON_BASE)
  {
  }

  /** Different tokens get different placeholders: the chain id's decimal
      form never contains the `:` separator. */
  lemma IdenticonInjective(c1: int, a1: string, c2: int, a2: string)
    requires Identicon(c1, a1) == Identicon(c2, a2)
    ensures c1 == c2 && Lower(a1) == Lower(a2)
  {
    var s1, s2 := IntToString(c1), IntToString(c2);
    PrefixCancels(IDENTICON_BASE, s1 + ":" + Lower(a1), s2 + ":" + Lower(a2));
    NoColonInIntToString(c1);
    NoColonInIntToString(c2);
    SeparatorSplitsUniquely(s1, Lower(a1), s2, Lower(a2), ':');
    IntToStringInjective(c1, c2);
  }

  /** Equal strings with a common prefix have equal remainders. */
  lemma PrefixCancels(b: string, t1: string, t2: string)
    requires b + t1 == b + t2
    ensures t1 == t2
  {
    assert t1 == (b + t1)[|b|..];
    assert t2 == (b + t2)[|b|..];
  }

  /** A separator absent from the first piece marks where that piece ends. */
  lemma SeparatorSplitsUniquely(s1: string, r1: string, s2: string, r2: string, c: char)
    requires c !in s1 && c !in s2
    requires s1 + [c] + r1 == s2 + [c] + r2
    ensures s1 == s2 && r1 == r2
  {
    var t := s1 + [c] + r1;
    assert forall i :: 0 <= i < |s1| ==> t[i] == s1[i];
    assert forall i :: 0 <= i < |s2| ==> t[i] == s2[i];
    assert t[|s1|] == c && t[|s2|] == c;
    assert |s1| == |s2|;
    assert s1 == t[..|s1|] && s2 == t[..|s2|];
    assert r1 == t[|s1| + 1..] && r2 == t[|s2| + 1..];
  }

  lemma NoColonInIntToString(n: int)
    ensures ':' !in IntToString(n)
  {
  }

  const IPFS_SCHEME := "ipfs://"
  const IPFS_GATEWAY := "https://cloudflare-ipfs.com/ipfs/"

  /** `ipfsToHttp(url)`: an `ipfs://CID/path` URL is rewritten onto the HTTP
      gateway, keeping CID and path; any other URL is returned unchanged. */
  function IpfsToHttp(url: string): (r: string)
    ensures !StartsWith(url, IPFS_SCHEME) ==> r == url
    ensures StartsWith(url, IPFS_SCHEME) ==> r == IPFS_GATEWAY + url[|IPFS_SCHEME|..]
    ensures !StartsWith(r, IPFS_SCHEME)
  {
    if !StartsWith(url, IPFS_SCHEME) then url
    else
      var cidPath := url[|IPFS_SCHEME|..];
      assert (IPFS_GATEWAY + cidPath)[0] == 'h';
      IPFS_GATEWAY + cidPath
  }

  /** Rewriting twice is rewriting once. */
  lemma IpfsToHttpIdempotent(url: string)
    ensures IpfsToHttp(IpfsToHttp(url)) == IpfsToHttp(url)
  {
  }

  /** `ipfs://X` becomes the gateway base followed by exactly `X`. */
  lemma IpfsToHttpPreservesPath(cidPath: string)
    ensures IpfsToHttp(IPFS_SCHEME + cidPath) == IPFS_GATEWAY + cidPath
  {
  }

  /** The network as seen by `fetch(url, { redirect: "follow" })`: the final
      response after redirects, or the reason the promise rejected. */
  type ImageFetch = string -> Result<FetchResponse<seq<bv8>>, string>

  const IMMUTABLE := "public, max-age=604800, immutable"

  /** `{ ...HEADERS_CORS, "Content-Type": "text/plain" }`. */
  const TEXT_HEADERS: Headers := HEADERS_CORS[CONTENT_TYPE := "text/plain"]

  /** `streamThrough(url)`. A rejected `fetch` rejects the handler. */
  function StreamThrough(url: string, fetch: ImageFetch): (r: Result<HttpResponse, string>)
    ensures fetch(IpfsToHttp(url)).Err? ==> r == Err(fetch(IpfsToHttp(url)).error)
    ensures fetch(IpfsToHttp(url)).Ok? && !fetch(IpfsToHttp(url)).value.Ok() ==>
              r == Ok(HttpResponse(502, TEXT_HEADERS, Text("Upstream " + IntToString(fetch(IpfsToHttp(url)).value.status))))
    ensures fetch(IpfsToHttp(url)).Ok? && fetch(IpfsToHttp(url)).value.Ok() ==>
              var up := fetch(IpfsToHttp(url)).value;
              && r.Ok? && r.value.status == 200
              && r.value.body == Bytes(up.body)
              && CACHE_CONTROL in r.value.headers && r.value.headers[CACHE_CONTROL] == IMMUTABLE
              && (forall k :: k in HEADERS_CORS ==> k in r.value.headers && r.value.headers[k] == HEADERS_CORS[k])
              && (forall k :: k != CACHE_CONTROL && k !in HEADERS_CORS ==>
                    (k in r.value.headers <==> k in up.headers)
                    && (k in up.headers ==> r.value.headers[k] == up.headers[k]))
  {
    match fetch(IpfsToHttp(url))
    case Err(e) => Err(e)
    case Ok(res) =>
      if !res.Ok() then
        Ok(HttpResponse(502, TEXT_HEADERS, Text("Upstream " + IntToString(res.status))))
      else
        CorsNamesAreDistinct();
        var h := res.headers[CACHE_CONTROL := IMMUTABLE];
        Ok(HttpResponse(200, SetAll(h, HEADERS_CORS), Bytes(res.body)))
  }

  /** The CORS header names are distinct from the other names the responder sets. */
  lemma CorsNamesAreDistinct()
    ensures CACHE_CONTROL !in HEADERS_CORS && CONTENT_TYPE !in HEADERS_CORS
  {
  }

  /** `Object.entries(src).forEach(([k, v]) => h.set(k, v))`. */
  function SetAll(h: Headers, src: Headers): (r: Headers)
    ensures forall k :: k in src ==> k in r && r[k] == src[k]
    ensures forall k :: k !in src ==> (k in r <==> k in h) && (k in h ==> r[k] == h[k])
  {
    h + src
  }
}

=== FILE: server.dfy ===
/** The request handler: routing, input validation, the logo fallback order
    (cache, native-token logo, identicon) and the proxied response. */
module Server {
  import opened Outcomes
  import opened Text
  import opened Numbers
  import opened Kv
  import opened Http
  import opened Constants
  import opened Proxy

  /** The method (`verb`) and the URL path of an incoming request. */
  datatype Request = Request(verb: string, pathname: string)

  const TOKEN_PREFIX := "/token/"
  const ZERO_ADDRESS := "0x0000000000000000000000000000000000000000"
  const USAGE := "Use /token/<chainId>/<address>"
  const INVALID_INPUT := "Invalid chainId or address"
  const NOT_FOUND := "Not found"

  /** `JSON.stringify({ ok: true, routes: [...], source: ... }, null, 2)`. */
  const HEALTH_JSON := "{\n  \"ok\": true,\n  \"routes\": [\n    \"/token/<chainId>/<address>\"\n  ],\n  \"source\": \"tokens.coingecko.com\"\n}"

  const JSON_HEADERS: Headers := HEADERS_CORS[CONTENT_TYPE := "application/json"]

  predicate IsLowerHex(c: char) {
    '0' <= c <= '9' || 'a' <= c <= 'f'
  }

  /** The regular expression `^0x[0-9a-f]{40}$`. */
  predicate IsAddress(a: string) {
    |a| == 42 && a[0] == '0' && a[1] == 'x' && forall i :: 2 <= i < 42 ==> IsLowerHex(a[i])
  }

  /** The cached logo for a token, where an empty string is a miss. */
  function CachedLogo(store: Store, chainId: int, address: string): (hit: Option<string>)
    ensures hit.Some? <==> LogoKey(chainId, address) in store && store[LogoKey(chainId, address)].Str?
                           && store[LogoKey(chainId, address)].s != ""
    ensures hit.Some? ==> store[LogoKey(chainId, address)] == Str(hit.value)
  {
    match GetStr(store, LogoKey(chainId, address))
    case Some(v) => if v != "" then Some(v) else None
    case None => None
  }

  /** The logo URL served for a valid token request: the cached entry when
      there is one, else the native-token logo for the zero address, else the
      identicon. */
  function ResolveLogo(store: Store, chainId: int, address: string): (url: string)
    ensures CachedLogo(store, chainId, address).Some? ==> url == CachedLogo(store, chainId, address).value
    ensures CachedLogo(store, chainId, address).None? && address == ZERO_ADDRESS ==>
              url == NativeTokenLogo(chainId) && StartsWith(url, ASSETS_BASE)
    ensures CachedLogo(store, chainId, address).None? && address != ZERO_ADDRESS ==>
              url == Identicon(chainId, address) && StartsWith(url, IDENTICON_BASE)
  {
    match CachedLogo(store, chainId, address)
    case Some(v) => v
    case None =>
      if address == ZERO_ADDRESS then NativeTokenLogo(chainId)
      else
        IdenticonCaseInsensitive(chainId, address);
        Identicon(chainId, address)
  }

  /** The `/token/<chainId>/<address>` branch once the path has been split. */
  function ServeToken(chainPart: string, addressPart: string, store: Store, fetch: ImageFetch): (r: Result<HttpResponse, string>)
    ensures ParseNumber(chainPart).None? || !IsAddress(Lower(addressPart)) ==>
              r == Ok(HttpResponse(400, TEXT_HEADERS, Text(INVALID_INPUT)))
    ensures ParseNumber(chainPart).Some? && IsAddress(Lower(addressPart)) ==>
              r == StreamThrough(ResolveLogo(store, ParseNumber(chainPart).value, Lower(addressPart)), fetch)
  {
    var chainId := ParseNumber(chainPart);
    var address := Lower(addressPart);
    if chainId.None? || !IsAddress(address) then
      Ok(HttpResponse(400, TEXT_HEADERS, Text(INVALID_INPUT)))
    else
      StreamThrough(ResolveLogo(store, chainId.value, address), fetch)
  }

  /** A valid request whose lower-cased address resolves to `logo` streams
      that logo; the chain part is the decimal form of the chain id. */
  lemma ServesResolvedLogo(chainId: int, address: string, store: Store, fetch: ImageFetch, logo: string)
    requires IsAddress(Lower(address))
    requires ResolveLogo(store, chainId, Lower(address)) == logo
    ensures ServeToken(IntToString(chainId), address, store, fetch) == StreamThrough(logo, fetch)
  {
    ParseIntToString(chainId);
  }

  /** `server(req)`. A rejected image fetch rejects the handler. */
  function Serve(req: Request, store: Store, fetch: ImageFetch): (r: Result<HttpResponse, string>)
    ensures req.verb == "OPTIONS" ==> r == Ok(HttpResponse(200, HEADERS_CORS, NoBody))
    ensures req.verb != "OPTIONS" && StartsWith(req.pathname, TOKEN_PREFIX) && |Segments(req.pathname)| != 3 ==>
              r == Ok(HttpResponse(400, TEXT_HEADERS, Text(USAGE)))
    ensures req.verb != "OPTIONS" && StartsWith(req.pathname, TOKEN_PREFIX) && |Segments(req.pathname)| == 3 ==>
              r == ServeToken(Segments(req.pathname)[1], Segments(req.pathname)[2], store, fetch)
    ensures req.verb != "OPTIONS" && !StartsWith(req.pathname, TOKEN_PREFIX) ==>
              r == Ok(if req.pathname in {"/", "/health"} then HttpResponse(200, JSON_HEADERS, Text(HEALTH_JSON))
                      else HttpResponse(404, HEADERS_CORS, Text(NOT_FOUND)))
  {
    if req.verb == "OPTIONS" then Ok(HttpResponse(200, HEADERS_CORS, NoBody))
    else if StartsWith(req.pathname, TOKEN_PREFIX) then
      var parts := Segments(req.pathname);
      if |parts| != 3 then Ok(HttpResponse(400, TEXT_HEADERS, Text(USAGE)))
      else ServeToken(parts[1], parts[2], store, fetch)
    else if req.pathname == "/" || req.pathname == "/health" then
      Ok(HttpResponse(200, JSON_HEADERS, Text(HEALTH_JSON)))
    else Ok(HttpResponse(404, HEADERS_CORS, Text(NOT_FOUND)))
  }

  /** The empty piece before the leading `/` is filtered out. */
  lemma DropsLeadingEmpty(a: string, b: string, c: string)
    requires a != "" && b != "" && c != ""
    ensures NonEmpty(["", a, b, c]) == [a, b, c]
  {
    var parts := ["", a, b, c];
    assert NonEmpty(parts[3..]) == [c] by {
      assert parts[3..] == [c] && [c][1..] == [];
    }
    assert NonEmpty(parts[2..]) == [b, c] by {
      assert parts[2..][1..] == parts[3..];
    }
    assert NonEmpty(parts[1..]) == [a, b, c] by {
      assert parts[1..][1..] == parts[2..];
    }
    assert parts[1..] == [a, b, c];
  }

  /** A well-formed token path splits into `token`, the chain id and the address. */
  lemma TokenPathSegments(chainPart: string, addressPart: string)
    requires chainPart != "" && addressPart != ""
    requires '/' !in chainPart && '/' !in addressPart
    ensures StartsWith(TOKEN_PREFIX + chainPart + "/" + addressPart, TOKEN_PREFIX)
    ensures Segments(TOKEN_PREFIX + chainPart + "/" + addressPart) == ["token", chainPart, addressPart]
  {
    var path := TOKEN_PREFIX + chainPart + "/" + addressPart;
    var parts := ["", "token", chainPart, addressPart];
    assert Join(parts[3..], '/') == addressPart;
    assert Join(parts[2..], '/') == chainPart + "/" + addressPart;
    assert Join(parts[1..], '/') == "token" + "/" + (chainPart + "/" + addressPart);
    assert Join(parts, '/') == "" + "/" + ("token" + "/" + (chainPart + "/" + addressPart));
    assert Join(parts, '/') == path;
    SplitJoin(parts, '/');
    DropsLeadingEmpty("token", chainPart, addressPart);
    StartsWithConcat(TOKEN_PREFIX, chainPart + "/" + addressPart);
    assert path == TOKEN_PREFIX + (chainPart + "/" + addressPart);
  }

  /** `GET /token/<chainId>/<address>` reaches the token branch with those two parts. */
  lemma TokenRequestRouted(verb: string, chainPart: string, addressPart: string, store: Store, fetch: ImageFetch)
    requires verb != "OPTIONS"
    requires chainPart != "" && addressPart != ""
    requires '/' !in chainPart && '/' !in addressPart
    ensures Serve(Request(verb, TOKEN_PREFIX + chainPart + "/" + addressPart), store, fetch)
            == ServeToken(chainPart, addressPart, store, fetch)
  {
    TokenPathSegments(chainPart, addressPart);
  }

  /** Invalid input is answered with 400 before the store or the network is
      consulted: the answer is the same for every store and every network. */
  lemma InvalidInputBeforeLookup(chainPart: string, addressPart: string, s1: Store, s2: Store, f1: ImageFetch, f2: ImageFetch)
    requires ParseNumber(chainPart).None? || !IsAddress(Lower(addressPart))
    ensures ServeToken(chainPart, addressPart, s1, f1) == ServeToken(chainPart, addressPart, s2, f2)
    ensures ServeToken(chainPart, addressPart, s1, f1) == Ok(HttpResponse(400, TEXT_HEADERS, Text(INVALID_INPUT)))
  {
  }

  /** The address is validated and looked up without regard to case. */
  lemma AddressCaseInsensitive(chainPart: string, addressPart: string, store: Store, fetch: ImageFetch)
    ensures ServeToken(chainPart, addressPart, store, fetch) == ServeToken(chainPart, Lower(addressPart), store, fetch)
  {
    LowerIdempotent(addressPart);
  }

  /** A cache hit is served even for the zero address; an empty cached value is a miss. */
  lemma CacheServedFirst(store: Store, chainId: int, logo: string)
    requires logo != ""
    requires LogoKey(chainId, ZERO_ADDRESS) in store && store[LogoKey(chainId, ZERO_ADDRESS)] == Str(logo)
    ensures ResolveLogo(store, chainId, ZERO_ADDRESS) == logo
    ensures ResolveLogo(store[LogoKey(chainId, ZERO_ADDRESS) := Str("")], chainId, ZERO_ADDRESS) == NativeTokenLogo(chainId)
  {
  }
}

=== FILE: text.dfy ===
/** String helpers with the semantics of the JavaScript string methods the
    service uses, restricted to what the service needs. */
module Text {

  /** `toLowerCase` on one character; only ASCII letters are mapped. */
  function LowerChar(c: char): char {
    if 'A' <= c <= 'Z' then (c as int + 32) as char else c
  }

  /** `s.toLowerCase()` on ASCII text. */
  function Lower(s: string): (r: string)
    ensures |r| == |s|
    ensures forall i :: 0 <= i < |s| ==> r[i] == LowerChar(s[i])
  {
    seq(|s|, i requires 0 <= i < |s| => LowerChar(s[i]))
  }

  /** Lower-casing twice is lower-casing once. */
  lemma LowerIdempotent(s: string)
    ensures Lower(Lower(s)) == Lower(s)
  {
  }

  /** `s.startsWith(p)`. */
  predicate StartsWith(s: string, p: string) {
    |p| <= |s| && s[..|p|] == p
  }

  lemma StartsWithConcat(p: string, x: string)
    ensures StartsWith(p + x, p)
  {
  }

  /** `s.split(sep)`: the maximal pieces between occurrences of `sep`. */
  function Split(s: string, sep: char): (parts: seq<string>)
    ensures |parts| >= 1
    decreases |s|
  {
    if |s| == 0 then [""]
    else
      var rest := Split(s[1..], sep);
      if s[0] == sep then [""] + rest
      else [[s[0]] + rest[0]] + rest[1..]
  }

  /** `parts.join(sep)`, the inverse of `Split`. */
  function Join(parts: seq<string>, sep: char): string
    decreases |parts|
  {
    if |parts| == 0 then ""
    else if |parts| == 1 then parts[0]
    else parts[0] + [sep] + Join(parts[1..], sep)
  }

  /** `parts.filter(Boolean)`: drops the empty strings, keeping the order. */
  function NonEmpty(parts: seq<string>): (r: seq<string>)
    ensures |r| <= |parts|
    ensures forall i :: 0 <= i < |r| ==> r[i] != ""
    ensures forall p :: p in r <==> p in parts && p != ""
  {
    if |parts| == 0 then []
    else if parts[0] == "" then NonEmpty(parts[1..])
    else [parts[0]] + NonEmpty(parts[1..])
  }

  /** The filter keeps every non-empty piece as often as it occurs and drops
      exactly the empty ones, so `parts.length` after filtering counts the
      non-empty pieces. */
  lemma {:induction false} NonEmptyMultiset(parts: seq<string>)
    ensures multiset(NonEmpty(parts)) == multiset(parts)["" := 0]
    ensures |NonEmpty(parts)| == |parts| - multiset(parts)[""]
    decreases |parts|
  {
    if |parts| > 0 {
      NonEmptyMultiset(parts[1..]);
      assert parts == [parts[0]] + parts[1..];
    }
  }

  /** Filtering distributes over concatenation, so the kept pieces stay in
      their original order. */
  lemma {:induction false} NonEmptyConcat(a: seq<string>, b: seq<string>)
    ensures NonEmpty(a + b) == NonEmpty(a) + NonEmpty(b)
    decreases |a|
  {
    if |a| > 0 {
      assert (a + b)[0] == a[0];
      assert (a + b)[1..] == a[1..] + b;
      NonEmptyConcat(a[1..], b);
    } else {
      assert a + b == b;
    }
  }

  /** `path.split("/").filter(Boolean)`. */
  function Segments(path: string): seq<string> {
    NonEmpty(Split(path, '/'))
  }

  /** A piece free of the separator splits to itself. */
  lemma {:induction false} SplitPiece(p: string, sep: char)
    requires sep !in p
    ensures Split(p, sep) == [p]
    decreases |p|
  {
    if |p| > 0 {
      SplitPiece(p[1..], sep);
      assert [p[0]] + p[1..] == p;
    }
  }

  /** Splitting a piece followed by the separator peels the piece off. */
  lemma {:induction false} SplitCons(p: string, sep: char, rest: string)
    requires sep !in p
    ensures Split(p + [sep] + rest, sep) == [p] + Split(rest, sep)
    decreases |p|
  {
    var s := p + [sep] + rest;
    if |p| == 0 {
      assert s == [sep] + rest;
      assert s[1..] == rest;
    } else {
      assert s[0] == p[0];
      assert s[1..] == p[1..] + [sep] + rest;
      SplitCons(p[1..], sep, rest);
      assert [p[0]] + p[1..] == p;
    }
  }

  /** Round trip: pieces free of the separator are recovered by splitting their join. */
  lemma {:induction false} SplitJoin(parts: seq<string>, sep: char)
    requires |parts| >= 1
    requires forall i :: 0 <= i < |parts| ==> sep !in parts[i]
    ensures Split(Join(parts, sep), sep) == parts
    decreases |parts|
  {
    if |parts| == 1 {
      SplitPiece(parts[0], sep);
    } else {
      SplitJoin(parts[1..], sep);
      SplitCons(parts[0], sep, Join(parts[1..], sep));
      assert [parts[0]] + parts[1..] == parts;
    }
  }

  /** Round trip the other way: joining the pieces of a split gives the string back. */
  lemma {:induction false} JoinSplit(s: string, sep: char)
    ensures Join(Split(s, sep), sep) == s
    decreases |s|
  {
    if |s| > 0 {
      var rest := Split(s[1..], sep);
      JoinSplit(s[1..], sep);
      if s[0] == sep {
        assert Join([""] + rest, sep) == "" + [sep] + Join(rest, sep);
        assert s == [sep] + s[1..];
      } else {
        var parts := [[s[0]] + rest[0]] + rest[1..];
        if |rest| == 1 {
          assert Join(parts, sep) == [s[0]] + rest[0];
        } else {
          assert parts[1..] == rest[1..];
          assert Join(rest, sep) == rest[0] + [sep] + Join(rest[1..], sep);
        }
        assert s == [s[0]] + s[1..];
      }
    }
  }
}
